=== FILE: README.md ===
# QRPhone profile, payload and scanner rules in Dafny

QRPhone is a small SwiftUI app. The user fills in a contact card (first
name, last name, phone, optional email) and the app shows it as a QR code.
It can also scan someone else's code. This project models the app's logic
as pure Dafny functions over immutable records and proves what the code
promises:

- the form's rules: the per-field length clamps while typing, and the email
  binding that shows an absent email as empty text and stores empty text as
  absent;
- the view model's rules: `sanitize` (trim, then cut), the phone whitelist,
  the email regular expression (written out as a matcher and proved equal to
  its grammar), `saveData` with its fixed order of checks, `deleteData`,
  `hasData` and `init`;
- the defaults-backed `StorageService`, over four fixed keys;
- the newline-joined text that `generateQRCode` hands to the image
  generator;
- the single-shot scan debounce of the camera coordinator and the
  controller's `isScanning` flag;
- the integer part of `Color.init(hex:)`.

Files, one module each:

| file | module | models |
|---|---|---|
| optional.dfy | `Optional` | Swift optionals |
| text.dfy | `Text` | `whitespacesAndNewlines`, `trimmingCharacters(in:)`, `prefix`, search, join and split |
| user_data.dfy | `UserModel` | `UserData` and `fullName` |
| storage_service.dfy | `Storage` | `StorageService` |
| email.dfy | `Email` | the `isValidEmail` pattern |
| user_data_view_model.dfy | `ViewModel` | `UserDataViewModel` |
| qr_payload.dfy | `QrPayload` | the `generateQRCode` payload text |
| user_form_view.dfy | `Form` | `UserFormView` clamps, email binding, save button |
| camera.dfy | `Camera` | `CameraView` coordinator and the `CameraViewController` flag |
| theme.dfy | `HexColor` | `Color.init(hex:)` |

Modelling choices:

- Strings are sequences of Unicode scalar values.
- The defaults store is a `map<string, string>`. Writing nil to a key
  removes it. That is the platform's documented behaviour, assumed here.
- Swift's `>>` and `&` on the non-negative scanned integer are written as
  division and remainder by powers of two.
- `Scanner.scanHexInt64` is taken to read the leading run of hex digits,
  giving zero when there is none.
- Camera callbacks are delivered on the main queue. Every event of the
  `CameraView` screen is therefore one step of a sequential transition
  function. The modelled single-shot debounce belongs to `CameraView`,
  which none of the app's visible views instantiates; the scanner screen
  the app shows uses `QRCodeScanner` instead.

Two behaviours of the code are proved rather than assumed away:

- **Sanitizing is not idempotent.** A cut can leave trailing whitespace
  that a second pass would remove.
- **The email pattern's `$` tolerates a final line break.** ICU's `$`,
  outside multi-line mode, also matches just before one final line
  terminator. On a trimmed value this changes nothing. The form already
  clamps the email to 254 characters as it is typed, so in the app the
  save-time cut never removes anything (`Form.ClampMakesCutRedundant`) and a
  committed email never ends in whitespace (`ViewModel.ClampedEmailSavedClean`).
  Only when `saveData` is called on a record the form has not clamped can
  the 254-character cut end on a line break; an email ending in that line
  break then passes the check and is stored.

No decoder for the payload exists in the code. Scanned text is shown as it
is. This model only proves facts about the encoder's output under a split
on line feeds.

## Model

| member | source | states |
|---|---|---|
| Text.TrimStart | QRPhone/ViewModels/UserDataViewModel.swift:36 | the result is a suffix of the input, everything removed is in the set, and a non-empty result does not start with a member of the set |
| Text.TrimEnd | QRPhone/ViewModels/UserDataViewModel.swift:36 | the result is a prefix of the input, everything removed is in the set, and a non-empty result does not end with a member of the set |
| Text.Trim | QRPhone/ViewModels/UserDataViewModel.swift:36 | trimming leaves a contiguous slice of the input; everything before and after the slice is in the set, and the slice neither starts nor ends with a member of it |
| Text.TrimUnique | QRPhone/ViewModels/UserDataViewModel.swift:36 | any slice with those properties is the trimmed result, so trimming is fully determined by the character set |
| Text.Prefix | QRPhone/ViewModels/UserDataViewModel.swift:36 | `prefix(n)` returns a prefix of at most n characters: the whole string when it fits, exactly n characters otherwise |
| UserModel.FullName | QRPhone/UsserData.swift:16-18 | the display name is the first name, one space, then the last name, with length first + last + 1 |
| UserModel.FullNameNeverEmpty | QRPhone/UsserData.swift:17 | the display name is never empty and always holds a space |
| UserModel.EmptyUserFullName | QRPhone/UsserData.swift:17 | the all-empty record that delete produces displays as a single space |
| UserModel.FullNameSplit | QRPhone/UsserData.swift:17 | when the first name holds no space, the first space of the display name sits right after it, so the two names can be read back |
| Storage.Put | QRPhone/Services/StorageService.swift:17-22 | after a write, the key reads back the written value (absent for nil) and every other key reads as before |
| Storage.SaveData | QRPhone/Services/StorageService.swift:17-22 | the first name goes under "userName", the last name under "userLastName", the phone under "userPhone" and the email (or its absence) under "userEmail"; no other key changes |
| Storage.LoadData | QRPhone/Services/StorageService.swift:25-31 | each field is read from its key; a missing name or phone reads as empty text and a missing email as nil; nothing is validated |
| Storage.DeleteData | QRPhone/Services/StorageService.swift:33-38 | the four profile keys are gone and every other key is unchanged |
| Storage.LoadAfterSave | QRPhone/Services/StorageService.swift:17-31 | loading after saving u gives back exactly u, an absent email included |
| Storage.LoadMissing | QRPhone/Services/StorageService.swift:25-31 | a store without the profile keys loads as the all-empty record |
| Storage.LoadAfterDelete | QRPhone/Services/StorageService.swift:25-38 | loading after a delete gives the all-empty record |
| Storage.DeleteIdempotent | QRPhone/Services/StorageService.swift:33-38 | deleting twice leaves the same store as deleting once |
| Storage.SaveOverwrites | QRPhone/Services/StorageService.swift:17-22 | a later save fully replaces an earlier one, a stored email included when the later record has none |
| Storage.DeleteAfterSave | QRPhone/Services/StorageService.swift:17-38 | delete after save gives the same store as delete alone, so saving touches no other key |
| Email.IsValidEmail | QRPhone/ViewModels/UserDataViewModel.swift:44-47 | `isValidEmail`: the anchored pattern matches the whole string, or the string minus one final line terminator, or the string minus a final CR LF |
| Email.MatcherCorrect | QRPhone/ViewModels/UserDataViewModel.swift:44-47 | the matcher accepts a string exactly when it is L@D.T with L of `[A-Za-z0-9._%+-]+`, D of `[A-Za-z0-9.-]+` and T of at least two ASCII letters |
| Email.MatchesInGrammar | QRPhone/ViewModels/UserDataViewModel.swift:45 | what the matcher accepts splits into the pattern's three parts |
| Email.GrammarMatches | QRPhone/ViewModels/UserDataViewModel.swift:45 | every string of the pattern's three parts is accepted by the matcher |
| Email.ValidEmailIsGrammar | QRPhone/ViewModels/UserDataViewModel.swift:44-47 | for a string not ending in a line terminator, `isValidEmail` holds exactly when the string is in the pattern's language |
| Email.TrimmedValidEmailInGrammar | QRPhone/ViewModels/UserDataViewModel.swift:44-47 | a passing string that does not end in whitespace is in the pattern's language |
| Email.TrailingNewlineAccepted | QRPhone/ViewModels/UserDataViewModel.swift:45-46 | a string of the pattern followed by a line feed still passes, because of ICU's `$` |
| Email.GrammarHasOneAt | QRPhone/ViewModels/UserDataViewModel.swift:45 | a string of the pattern holds exactly one at sign |
| Email.GrammarLineFree | QRPhone/ViewModels/UserDataViewModel.swift:45 | a string of the pattern holds no whitespace and no line break |
| Email.NoAtInvalid | QRPhone/ViewModels/UserDataViewModel.swift:44-47 | a string without an at sign never passes the check |
| Email.ValidEmailEndsInTld | QRPhone/ViewModels/UserDataViewModel.swift:44-47 | a passing string not ending in a line terminator ends in two ASCII letters |
| ViewModel.Sanitize | QRPhone/ViewModels/UserDataViewModel.swift:35-37 | the result has at most maxLength characters and is a prefix of the trimmed value: all of it when it fits, exactly maxLength characters otherwise; a non-empty result never starts with whitespace |
| ViewModel.SanitizeNotIdempotent | QRPhone/ViewModels/UserDataViewModel.swift:35-37 | "ab cd" cut to 3 gives "ab ", and sanitizing that again gives "ab", so the operation is not idempotent |
| ViewModel.SanitizeIdempotentWhenShort | QRPhone/ViewModels/UserDataViewModel.swift:35-37 | when the trimmed value fits, a second pass changes nothing |
| ViewModel.SanitizeNoTrailingWs | QRPhone/ViewModels/UserDataViewModel.swift:35-37 | when the trimmed value fits, the result does not end with whitespace |
| ViewModel.SanitizeKeeps | QRPhone/ViewModels/UserDataViewModel.swift:35-37 | a value that fits and has no whitespace at either end is kept unchanged |
| ViewModel.SanitizeTrimOnly | QRPhone/ViewModels/UserDataViewModel.swift:35-37 | a value with no whitespace at either end is only cut, never trimmed |
| ViewModel.CutLastChar | QRPhone/ViewModels/UserDataViewModel.swift:35-37 | a value of exactly the limit with one non-space character appended is cut back to the value |
| ViewModel.IsValidPhone | QRPhone/ViewModels/UserDataViewModel.swift:39-42 | `isValidPhone`: the text is non-empty and every character is one of `+`, a digit, space, `(`, `)` or `-` |
| ViewModel.IsValidEmail | QRPhone/ViewModels/UserDataViewModel.swift:44-47 | the view model's email check is the pattern test `Email.IsValidEmail` |
| ViewModel.EmptyPhoneRejected | QRPhone/ViewModels/UserDataViewModel.swift:39-42 | the empty string is not a phone number |
| ViewModel.PhoneRejections | QRPhone/ViewModels/UserDataViewModel.swift:39-42 | any string holding a character outside "+0123456789 ()-" is rejected |
| ViewModel.ValidPhoneHasNoNewline | QRPhone/ViewModels/UserDataViewModel.swift:39-42 | an accepted phone holds no line feed and no letter |
| ViewModel.OverlongPhoneTruncated | QRPhone/ViewModels/UserDataViewModel.swift:55-63 | a phone whose trimmed form is valid stays valid after the 20-character cut, so an overlong number is truncated, not rejected |
| ViewModel.HasData | QRPhone/ViewModels/UserDataViewModel.swift:29-31 | `hasData`: phone, first name and last name are all non-empty; the email is not consulted |
| ViewModel.Init | QRPhone/ViewModels/UserDataViewModel.swift:21-27 | start-up shows the stored record with no message, and the saved flag holds exactly when phone and both names are non-empty |
| ViewModel.SanitizedEmail | QRPhone/ViewModels/UserDataViewModel.swift:56-75 | the email to commit is nil when sanitizing leaves nothing, and otherwise the non-empty sanitized text |
| ViewModel.SanitizedProfile | QRPhone/ViewModels/UserDataViewModel.swift:53-56 | the record to commit respects the limits 100, 100, 20 and 254 |
| ViewModel.SaveData | QRPhone/ViewModels/UserDataViewModel.swift:51-81 | an empty name is refused first, then an invalid phone, then a non-empty invalid email, each with its own message; a record passing all three checks is never refused; a refusal changes only the message; success clears the message, commits the sanitized record, saves exactly that record and sets the saved flag |
| ViewModel.SaveSucceedsIffValid | QRPhone/ViewModels/UserDataViewModel.swift:51-81 | a save succeeds exactly when the sanitized record passes every check, and then the store loads back what was committed |
| ViewModel.SavedIsValid | QRPhone/ViewModels/UserDataViewModel.swift:58-78 | a committed record has non-empty names, a whitelisted phone and no email or a valid one, all within their limits |
| ViewModel.ValidIsSaved | QRPhone/ViewModels/UserDataViewModel.swift:58-75 | a sanitized record that passes every check is never refused |
| ViewModel.SaveRefusedWritesNothing | QRPhone/ViewModels/UserDataViewModel.swift:58-73 | a refused save leaves the record, the store and the saved flag as they were |
| ViewModel.BlankNameRefused | QRPhone/ViewModels/UserDataViewModel.swift:53-60 | a first name of only whitespace is refused with the name message, whatever the other fields hold |
| ViewModel.StoredEmailInGrammar | QRPhone/ViewModels/UserDataViewModel.swift:56-74 | when the trimmed email fits 254 characters, a committed email is in the pattern's language with no trailing line break |
| ViewModel.SanitizedEmailInGrammar | QRPhone/ViewModels/UserDataViewModel.swift:35-37 | an email that survives trimming uncut and passes the check is in the pattern's language |
| ViewModel.UncutEmailClean | QRPhone/ViewModels/UserDataViewModel.swift:35-37 | when the trimmed email fits 254 characters, the sanitized email does not end in whitespace |
| ViewModel.LongEmailsExist | QRPhone/ViewModels/UserDataViewModel.swift:45 | the pattern has strings of every length from 6 up, so an email of 253 characters is possible |
| ViewModel.CutEmailEndingInLineBreakSaved | QRPhone/ViewModels/UserDataViewModel.swift:56-78 | when `saveData` runs on a record the form has not clamped, a 253-character email followed by a line break and one more character is cut to end in that line break, passes the check, and is committed with the line break |
| ViewModel.ClampedEmailSavedClean | QRPhone/ViewModels/UserDataViewModel.swift:56-78 | an email of at most 254 characters, as the form leaves it, is committed without trailing whitespace or line break |
| ViewModel.ShortEmailSanitizedClean | QRPhone/ViewModels/UserDataViewModel.swift:35-37 | sanitizing an email of at most 254 characters leaves no trailing whitespace |
| ViewModel.SavedWithEmail | QRPhone/ViewModels/UserDataViewModel.swift:68-78 | with the names and the phone passing, an email that sanitizes to a non-empty valid text is committed as that text |
| ViewModel.CutEmail | QRPhone/ViewModels/UserDataViewModel.swift:56 | the 254 cut of such an email removes only its final character |
| ViewModel.DeleteData | QRPhone/ViewModels/UserDataViewModel.swift:85-89 | delete shows the all-empty record, leaves exactly the store with the four profile keys removed (which loads as that record), clears the saved flag and keeps the message |
| ViewModel.ConsistencyPreserved | QRPhone/ViewModels/UserDataViewModel.swift:21-89 | start-up makes the saved flag agree with `hasData` and the store load back the record on screen; save and delete keep both |
| ViewModel.ReopenAfterSave | QRPhone/ViewModels/UserDataViewModel.swift:21-80 | reopening after a successful save shows the saved record with the saved flag set |
| ViewModel.ReopenAfterDelete | QRPhone/ViewModels/UserDataViewModel.swift:21-89 | reopening after a delete shows the all-empty record, not saved |
| QrPayload.Payload | QRPhone/ViewModels/UserDataViewModel.swift:95 | the text handed to the QR generator: first name, line feed, last name, line feed, phone, line feed, email or empty text |
| QrPayload.PayloadIsJoin | QRPhone/ViewModels/UserDataViewModel.swift:95 | the payload is the first name, last name, phone and email (empty when absent) joined by line feeds |
| QrPayload.PayloadLineCount | QRPhone/ViewModels/UserDataViewModel.swift:95 | the payload's piece count under a split on line feeds is the sum of the fields' piece counts, so at least four |
| Text.SplitCount | QRPhone/ViewModels/UserDataViewModel.swift:95 | splitting on a separator yields exactly one piece more than the separators in the text, so each line feed inside a field adds one line to the payload |
| QrPayload.PayloadSplits | QRPhone/ViewModels/UserDataViewModel.swift:95 | when no field holds a line feed, splitting the payload on line feeds gives back exactly the four fields |
| QrPayload.SavedFieldsLineFree | QRPhone/ViewModels/UserDataViewModel.swift:63-78 | a committed phone holds no line feed, and neither does a committed email in the pattern's language |
| QrPayload.ValidFieldsLineFree | QRPhone/ViewModels/UserDataViewModel.swift:39-47 | a record passing every check has a line-free phone, and its email is line-free when in the pattern's language |
| QrPayload.InnerLineFeedKept | QRPhone/ViewModels/UserDataViewModel.swift:53 | sanitizing keeps a line feed inside a name, since trimming touches only the ends |
| QrPayload.InnerLineFeedShiftsFields | QRPhone/ViewModels/UserDataViewModel.swift:95 | a committed first name holding a line feed gives a payload of more than four lines that no longer splits into the fields |
| QrPayload.InnerLineFeedExample | QRPhone/ViewModels/UserDataViewModel.swift:95 | first name "Ana", line feed, "Maria" makes the payload split into five lines |
| Form.Clamp | QRPhone/Views/UserFormView.swift:47 | the clamped text has at most the limit, is a prefix of the typed text, is unchanged when it fits and has exactly the limit otherwise |
| Form.ClampIsPrefix | QRPhone/Views/UserFormView.swift:47 | the clamp is the same operation as taking the prefix, and clamping twice equals clamping once |
| Form.OnFirstNameChange | QRPhone/Views/UserFormView.swift:46-48 | the first name becomes a prefix of at most 100 characters, unchanged when it fits and exactly 100 characters when longer; no other field changes |
| Form.OnLastNameChange | QRPhone/Views/UserFormView.swift:52-54 | the last name becomes a prefix of at most 100 characters, unchanged when it fits and exactly 100 characters when longer; no other field changes |
| Form.OnPhoneChange | QRPhone/Views/UserFormView.swift:58-60 | the phone becomes a prefix of at most 20 characters, unchanged when it fits and exactly 20 characters when longer; no other field changes |
| Form.OnEmailChange | QRPhone/Views/UserFormView.swift:67-69 | a present email becomes a prefix of at most 254 characters, unchanged when it fits and exactly 254 characters when longer; an absent one stays absent; no other field changes |
| Form.ClampsIdempotent | QRPhone/Views/UserFormView.swift:46-69 | applying all clamps again changes nothing |
| Form.ClampMakesCutRedundant | QRPhone/Views/UserFormView.swift:46-48 | on clamped text the save-time cut removes nothing, and sanitizing is just trimming |
| Form.EmailText | QRPhone/Views/UserFormView.swift:63 | an absent email shows as empty text and a present one as itself |
| Form.SetEmailText | QRPhone/Views/UserFormView.swift:64 | empty text stores nil, other text stores itself, and no other field changes |
| Form.EmailBindingRoundTrip | QRPhone/Views/UserFormView.swift:62-65 | reading back what was typed gives the typed text, and writing back what is shown changes the record exactly when it held an empty email |
| Form.SaveDisabled | QRPhone/Views/UserFormView.swift:88-90 | the save button is disabled when the phone, the first name or the last name is empty |
| Form.SaveEnabledIffHasData | QRPhone/Views/UserFormView.swift:88-90 | the button is enabled exactly when the view model's `hasData` holds |
| Form.DisabledSaveRefused | QRPhone/Views/UserFormView.swift:88-90 | every record the disabled button keeps from saving would be refused anyway |
| Form.DisabledInvalid | QRPhone/Views/UserFormView.swift:88-90 | a record the disabled button blocks never sanitizes to one passing every check of `saveData` |
| Form.BlankNameEnabledButRefused | QRPhone/Views/UserFormView.swift:88-90 | whitespace-only names enable the button, yet the save is refused with the name message |
| Camera.OnDetect | QRPhone/Views/CameraView.swift:41-52 | a held code ignores detections; with none held, the code is set exactly when the first object is machine readable with a string value, and then to that string |
| Camera.CodeIsSticky | QRPhone/Views/CameraView.swift:43 | once a code is held, any run of detections keeps it |
| Camera.FirstCodeWins | QRPhone/Views/CameraView.swift:43-49 | starting from no code, a run of detections ends holding the string of the first detection that carries one |
| Camera.NoCodeNoBinding | QRPhone/Views/CameraView.swift:45-47 | a run in which no detection carries a code leaves no code |
| Camera.ViewDidLoad | QRPhone/Views/CameraViewController.swift:17-54 | the success path sets the flag and every early return leaves it as it was |
| Camera.RestartsOnUpdate | QRPhone/Views/CameraView.swift:21-27 | `updateUIViewController` restarts scanning exactly when no code is held and the controller is not scanning |
| Camera.Step | QRPhone/Views/CameraView.swift:21-52 | a detection applies the coordinator's rule to the code and never touches the flag; a reset sets the code to nil and nothing else; load applies `viewDidLoad` to the flag; start sets and stop clears it; only detection and reset touch the code; an update sets the flag exactly when it was set or the restart rule fires; disappearing changes nothing |
| Camera.LoadedIsScanning | QRPhone/Views/CameraViewController.swift:15-54 | after `viewDidLoad` the flag is set on every path, failures included, because it starts set |
| Camera.LastCallWins | QRPhone/Views/CameraViewController.swift:56-72 | after any run of events, a final start leaves the flag set and a final stop leaves it clear |
| Camera.UpdateRestoresScanning | QRPhone/Views/CameraView.swift:21-27 | after an update, a screen holding no code is scanning |
| Camera.CodeHeldUntilReset | QRPhone/Views/CameraView.swift:43-49 | a held code survives every run of events without a reset |
| Camera.NeverStoppedNeverRestarts | QRPhone/Views/CameraViewController.swift:65-72 | with no call to `stopScanning` the flag stays set, so the restart rule never fires |
| HexColor.Stripped | QRPhone/Utilities/Theme.swift:12 | the colour text with every leading and trailing non-alphanumeric character removed |
| HexColor.LeadingHexRun | QRPhone/Utilities/Theme.swift:14 | the run is a prefix of hex digits followed by a non-hex character or the end of the text |
| HexColor.HexValue | QRPhone/Utilities/Theme.swift:14 | the value of n hex digits is below 16^n |
| HexColor.ScanHex | QRPhone/Utilities/Theme.swift:14 | the scanned value of a text of length n is below 16^n |
| HexColor.HexValueConcat | QRPhone/Utilities/Theme.swift:14 | reading two digit strings in a row gives the first value shifted by the second's length plus the second value |
| HexColor.ScanAllHex | QRPhone/Utilities/Theme.swift:14 | a text made only of hex digits is read whole |
| HexColor.Rgb12 | QRPhone/Utilities/Theme.swift:17-18 | for a 12-bit value, alpha is 255 and every channel is at most 255 |
| HexColor.Rgb24 | QRPhone/Utilities/Theme.swift:19-20 | for a 24-bit value, alpha is 255 and every channel is at most 255 |
| HexColor.Argb32 | QRPhone/Utilities/Theme.swift:21-22 | for a 32-bit value, every channel, alpha included, is at most 255 |
| HexColor.FromHex | QRPhone/Utilities/Theme.swift:11-25 | every channel is at most 255 for any text; a stripped length other than 3, 6 or 8 gives (255, 0, 0, 0); lengths 3 and 6 are opaque |
| HexColor.NibbleChannels | QRPhone/Utilities/Theme.swift:17-18 | for three 4-bit digits, the channels are the digits times 17 |
| HexColor.PairChannels | QRPhone/Utilities/Theme.swift:19-20 | for three 8-bit pairs, the channels are the pairs in order |
| HexColor.AlphaChannel | QRPhone/Utilities/Theme.swift:21-22 | for an 8-bit alpha above 24 bits of colour, alpha is the top byte and the colour channels are those of the 24-bit case |
| HexColor.ThreeDigitChannels | QRPhone/Utilities/Theme.swift:17-18 | three hex digits give each channel as its digit times 17, opaque |
| HexColor.SixDigitChannels | QRPhone/Utilities/Theme.swift:19-20 | six hex digits give red, green and blue from the three digit pairs, opaque |
| HexColor.EightDigitChannels | QRPhone/Utilities/Theme.swift:21-22 | eight hex digits give alpha from the first pair and the colour from the last six as in the six-digit case |
| HexColor.FromHexThreeDigits | QRPhone/Utilities/Theme.swift:12-18 | a text that strips to three hex digits gives each channel as its digit times 17, opaque |
| HexColor.FromHexSixDigits | QRPhone/Utilities/Theme.swift:12-20 | a text that strips to six hex digits gives the channels of its three pairs, opaque |
| HexColor.FromHexEightDigits | QRPhone/Utilities/Theme.swift:12-22 | a text that strips to eight hex digits gives alpha, red, green and blue from its four pairs in that order |
| HexColor.DeepBlueStripped | QRPhone/Utilities/Theme.swift:12 | "#3A75FF" strips to "3A75FF", and "3A75FF" strips to itself |
| HexColor.DeepBlue | QRPhone/Utilities/Theme.swift:43 | the deep blue, with or without its `#`, is (alpha 255, red 58, green 117, blue 255) |

## Left out

- QR image generation: the payload is handed to a Core Image filter, a foreign library; the model stops at the payload text.
- Camera capture and feedback: session setup, running the session on a background queue, the preview layer, vibration and logging are platform I/O. Setup is reduced to its outcome (`Camera.SetupOutcome`), and the session's running state is not modelled.
- The `QRCodeScanner` coordinator that the scanner screen actually uses (QRPhone/Views/QRScannerView.swift:21): it has no held-code guard, so every detection carrying a code overwrites the previous one (QRPhone/Utilities/QRCodeScanneer.swift:35-41). It is outside this model; the single-shot debounce proved here holds for `CameraView` only.
- The coordinator's `hasScanned` field is never read or written after initialisation, so it is not modelled.
- Contact-book writing, the scanner and display screens and the older duplicate `ContentView`: callbacks into the Contacts framework and presentation, outside this model.
- The view model's `showAlert` and `showingScanner` flags: they are set and read only by the presentation layer (QRPhone/Views/QRDisplayView.swift:32, 48), which is outside this model.
- The display screen's "Editar información" button, which clears `isDataSaved` (QRPhone/Views/QRDisplayView.swift:43), and form edits, which change the record without writing the store: neither is a transition of the model, so `ViewModel.Consistent` is claimed across init, save and delete only.
- ViewModel.Sanitize: characters are counted as Unicode scalar values, whereas Swift's `count` and `prefix` count grapheme clusters; a text with combining marks may be cut at a different place.
- Form.Clamp: the same scalar-versus-grapheme gap applies to `v.count` and `prefix` in the field clamps (QRPhone/Views/UserFormView.swift:47).
- HexColor.FromHex: the length switch on `hex.count` (QRPhone/Utilities/Theme.swift:16) counts scalars here, not grapheme clusters; a stripped text with combining marks may select a different branch.
- Text.IsWs: the Foundation set `whitespacesAndNewlines` is written out as its scalar list, without the platform's tables behind it.
- HexColor.Stripped: "alphanumeric" is ASCII letters and digits only, whereas Foundation's set includes every Unicode letter, mark and number. A colour text with non-ASCII letters at its ends may be stripped differently.
- HexColor.ScanHex: a `0x` prefix and the 64-bit overflow of very long digit runs are not modelled. Only stripped lengths 3, 6 and 8 use the value, and those never overflow.
- The conversion of each channel to a `Double` divided by 255, and the colour construction itself, are floating point and platform calls.
- The defaults store's durability, its synchronisation across processes and its write failures; it is a total in-memory map.
- A payload decoder: the code has none; scanned text is shown as it is (QRPhone/Views/QRScannerView.swift:38, 66).

=== FILE: camera.dfy ===
/** The single-shot scan debounce of `CameraView` and the `isScanning`
    flag of `CameraViewController`. Detections are delivered on the main
    queue, so every transition below runs to completion before the next. */
module Camera {
  import opened Optional

  /** One object of a detection: a machine-readable code, with or without
      a string value, or an object of another kind. */
  datatype MetadataObject = MachineReadable(stringValue: Option<string>) | OtherObject

  /** The detection carries a code: its first object is machine readable
      and has a string value. Later objects are never looked at. */
  predicate Accepts(objects: seq<MetadataObject>) {
    |objects| > 0 && objects[0].MachineReadable? && objects[0].stringValue.Some?
  }

  /** `Coordinator.metadataOutput`: the binding's new value after one
      detection. */
  function OnDetect(scannedCode: Option<string>, objects: seq<MetadataObject>): (r: Option<string>)
    ensures scannedCode.Some? ==> r == scannedCode
    ensures scannedCode.None? ==> (r.Some? <==> Accepts(objects))
    ensures scannedCode.None? && r.Some? ==> r == objects[0].stringValue
  {
    if scannedCode.Some? then scannedCode
    else if |objects| == 0 then scannedCode
    else
      match objects[0]
      case OtherObject => scannedCode
      case MachineReadable(value) =>
        if value.None? then scannedCode else value
  }

  /** The binding after a run of detections with no reset in between. */
  function AfterDetections(scannedCode: Option<string>, detections: seq<seq<MetadataObject>>): Option<string>
    decreases |detections|
  {
    if detections == [] then scannedCode
    else AfterDetections(OnDetect(scannedCode, detections[0]), detections[1..])
  }

  /** Detection `i` is the first one carrying a code. */
  ghost predicate FirstAcceptedAt(detections: seq<seq<MetadataObject>>, i: int) {
    && 0 <= i < |detections| && Accepts(detections[i])
    && forall j :: 0 <= j < i ==> !Accepts(detections[j])
  }

  /** Once set, the code survives every further detection. */
  lemma {:induction false} CodeIsSticky(code: string, detections: seq<seq<MetadataObject>>)
    ensures AfterDetections(Some(code), detections) == Some(code)
    decreases |detections|
  {
    if detections != [] {
      CodeIsSticky(code, detections[1..]);
    }
  }

  /** Starting from no code, a run of detections ends holding the code of
      the first detection that carries one. */
  lemma {:induction false} FirstCodeWins(detections: seq<seq<MetadataObject>>, i: int)
    requires FirstAcceptedAt(detections, i)
    ensures AfterDetections(None, detections) == detections[i][0].stringValue
    decreases i
  {
    var rest := detections[1..];
    if i == 0 {
      CodeIsSticky(detections[0][0].stringValue.value, rest);
    } else {
      assert !Accepts(detections[0]);
      assert FirstAcceptedAt(rest, i - 1);
      FirstCodeWins(rest, i - 1);
    }
  }

  /** A run in which no detection carries a code leaves no code. */
  lemma {:induction false} NoCodeNoBinding(detections: seq<seq<MetadataObject>>)
    requires forall i :: 0 <= i < |detections| ==> !Accepts(detections[i])
    ensures AfterDetections(None, detections) == None
    decreases |detections|
  {
    if detections != [] {
      assert !Accepts(detections[0]);
      NoCodeNoBinding(detections[1..]);
    }
  }

  /** How camera setup in `viewDidLoad` ends: one of its early returns, or
      a session ready to run. */
  datatype SetupOutcome = NoVideoDevice | InputFailed | InputRejected | OutputRejected | Ready

  /** The `CameraView` screen: the `scannedCode` binding and the
      controller's `isScanning` flag. No view of the app instantiates
      `CameraView`; its scanner screen uses `QRCodeScanner`, whose
      coordinator has no held-code guard and is not modelled here. */
  datatype Session = Session(scannedCode: Option<string>, isScanning: bool)

  /** `isScanning` starts true; no code has been scanned. */
  const Initial := Session(None, true)

  /** What can happen to the screen, one main-queue step at a time. */
  datatype Event =
    | Load(outcome: SetupOutcome)            // viewDidLoad
    | Detect(objects: seq<MetadataObject>)   // a metadata callback
    | Reset                                  // the binding set back to nil
    | Update                                 // updateUIViewController
    | Start                                  // startScanning
    | Stop                                   // stopScanning
    | Disappear                              // viewWillDisappear

  /** `viewDidLoad` ends in `startScanning` on the success path; every
      early return leaves the flag alone. */
  function ViewDidLoad(isScanning: bool, outcome: SetupOutcome): (r: bool)
    ensures outcome == Ready ==> r
    ensures outcome != Ready ==> r == isScanning
  {
    if outcome == Ready then true else isScanning
  }

  /** `updateUIViewController` restarts scanning exactly when no code is
      held and scanning is off. */
  predicate RestartsOnUpdate(s: Session) {
    s.scannedCode.None? && !s.isScanning
  }

  function Step(s: Session, e: Event): (r: Session)
    ensures e.Detect? ==> r.isScanning == s.isScanning
    ensures e.Detect? ==> r.scannedCode == OnDetect(s.scannedCode, e.objects)
    ensures e == Reset ==> r == s.(scannedCode := None)
    ensures e.Load? ==> r.isScanning == ViewDidLoad(s.isScanning, e.outcome)
    ensures e == Start ==> r.isScanning
    ensures e == Stop ==> !r.isScanning
    ensures !e.Detect? && !e.Reset? ==> r.scannedCode == s.scannedCode
    ensures e == Update ==> (r.isScanning <==> s.isScanning || RestartsOnUpdate(s))
    ensures e == Disappear ==> r == s
  {
    match e
    case Load(outcome) => s.(isScanning := ViewDidLoad(s.isScanning, outcome))
    case Detect(objects) => s.(scannedCode := OnDetect(s.scannedCode, objects))
    case Reset => s.(scannedCode := None)
    case Update => if RestartsOnUpdate(s) then s.(isScanning := true) else s
    case Start => s.(isScanning := true)
    case Stop => s.(isScanning := false)
    case Disappear => s
  }

  function Run(s: Session, events: seq<Event>): Session
    decreases |events|
  {
    if events == [] then s else Run(Step(s, events[0]), events[1..])
  }

  lemma {:induction false} RunAppend(s: Session, events: seq<Event>, e: Event)
    ensures Run(s, events + [e]) == Step(Run(s, events), e)
    decreases |events|
  {
    if events != [] {
      assert (events + [e])[1..] == events[1..] + [e];
      RunAppend(Step(s, events[0]), events[1..], e);
    }
  }

  /** After `viewDidLoad` the flag is set on every path, early returns
      included, because it starts set. */
  lemma LoadedIsScanning(outcome: SetupOutcome)
    ensures Step(Initial, Load(outcome)).isScanning
  {
  }

  /** Of a run of start and stop calls, the last one decides the flag. */
  lemma LastCallWins(s: Session, events: seq<Event>, last: Event)
    requires last == Start || last == Stop
    ensures Run(s, events + [last]).isScanning <==> last == Start
  {
    RunAppend(s, events, last);
  }

  /** After an update, a screen holding no code is always scanning. */
  lemma UpdateRestoresScanning(s: Session)
    ensures Step(s, Update).scannedCode.None? ==> Step(s, Update).isScanning
  {
  }

  /** A held code survives any run of events that has no reset. */
  lemma {:induction false} CodeHeldUntilReset(s: Session, events: seq<Event>)
    requires s.scannedCode.Some?
    requires forall i :: 0 <= i < |events| ==> events[i] != Reset
    ensures Run(s, events).scannedCode == s.scannedCode
    decreases |events|
  {
    if events != [] {
      CodeHeldUntilReset(Step(s, events[0]), events[1..]);
    }
  }

  /** No view of the app calls `stopScanning`: without it the flag never
      drops, so the restart in `updateUIViewController` never fires. */
  lemma {:induction false} NeverStoppedNeverRestarts(s: Session, events: seq<Event>)
    requires s.isScanning
    requires forall i :: 0 <= i < |events| ==> events[i] != Stop
    ensures Run(s, events).isScanning
    ensures !RestartsOnUpdate(Run(s, events))
    decreases |events|
  {
    if events != [] {
      NeverStoppedNeverRestarts(Step(s, events[0]), events[1..]);
    }
  }
}

=== FILE: email.dfy ===
/** The email check of the profile form: the regular expression
    `^[A-Z0-9a-z._%+-]+@[A-Za-z0-9.-]+\.[A-Za-z]{2,}$`, written out as a
    matcher and proved equal to the grammar it denotes. */
module Email {
  import opened Optional
  import opened Text

  /** `[A-Z0-9a-z._%+-]`, the characters of the part before the at sign. */
  predicate IsLocalChar(c: char) {
    IsAsciiLetter(c) || IsAsciiDigit(c) || c == '.' || c == '_' || c == '%' || c == '+' || c == '-'
  }

  /** `[A-Za-z0-9.-]`, the characters of the domain before the final dot. */
  predicate IsDomainChar(c: char) {
    IsAsciiLetter(c) || IsAsciiDigit(c) || c == '.' || c == '-'
  }

  /** `s` is `l@d.t` with each part drawn from its character class:
      `l` and `d` non-empty, `t` at least two ASCII letters. */
  ghost predicate Shape(s: string, l: string, d: string, t: string) {
    && s == l + "@" + d + "." + t
    && |l| >= 1 && All(l, IsLocalChar)
    && |d| >= 1 && All(d, IsDomainChar)
    && |t| >= 2 && All(t, IsAsciiLetter)
  }

  /** The language of the regular expression without its anchors. */
  ghost predicate InGrammar(s: string) {
    exists l, d, t :: Shape(s, l, d, t)
  }

  /** Matches `[A-Za-z0-9.-]+\.[A-Za-z]{2,}` against the whole of `r`. The
      top-level domain holds no dot, so it can only start after the last dot. */
  predicate MatchesDomain(r: string) {
    match LastIndexOf(r, '.')
    case None => false
    case Some(j) =>
      && 1 <= j && All(r[..j], IsDomainChar)
      && |r| - j - 1 >= 2 && All(r[j + 1..], IsAsciiLetter)
  }

  /** Matches the unanchored pattern against the whole of `s`. No class
      holds an at sign, so the local part must end at the first one. */
  predicate MatchesWhole(s: string) {
    match IndexOf(s, '@')
    case None => false
    case Some(i) => 1 <= i && All(s[..i], IsLocalChar) && MatchesDomain(s[i + 1..])
  }

  /** The matcher accepts exactly the grammar's strings. */
  lemma MatcherCorrect(s: string)
    ensures MatchesWhole(s) <==> InGrammar(s)
  {
    if MatchesWhole(s) {
      MatchesInGrammar(s);
    }
    if InGrammar(s) {
      var l, d, t :| Shape(s, l, d, t);
      GrammarMatches(s, l, d, t);
    }
  }

  lemma MatchesInGrammar(s: string)
    requires MatchesWhole(s)
    ensures InGrammar(s)
  {
    var i := IndexOf(s, '@').value;
    var r := s[i + 1..];
    var j := LastIndexOf(r, '.').value;
    ShapeAt(s, i, r, j);
  }

  /** The parts the matcher finds, around the at sign at `i` and the dot at
      `j` of the rest `r`, form the grammar's decomposition. */
  lemma ShapeAt(s: string, i: nat, r: string, j: nat)
    requires i < |s| && s[i] == '@' && r == s[i + 1..]
    requires 1 <= i && All(s[..i], IsLocalChar)
    requires j < |r| && r[j] == '.'
    requires 1 <= j && All(r[..j], IsDomainChar)
    requires |r| - j - 1 >= 2 && All(r[j + 1..], IsAsciiLetter)
    ensures Shape(s, s[..i], r[..j], r[j + 1..])
  {
    var l, d, t := s[..i], r[..j], r[j + 1..];
    assert r == d + "." + t;
    assert s == l + "@" + r;
    assert s == l + "@" + d + "." + t;
  }

  lemma GrammarMatches(s: string, l: string, d: string, t: string)
    requires Shape(s, l, d, t)
    ensures MatchesWhole(s)
  {
    var r := d + "." + t;
    DomainMatches(r, d, t);
    assert s == l + "@" + r;
    AllExcludes(l, IsLocalChar, '@');
    IndexOfAfter(l, '@', r);
    assert s[..|l|] == l && s[|l| + 1..] == r;
  }

  lemma DomainMatches(r: string, d: string, t: string)
    requires r == d + "." + t
    requires |d| >= 1 && All(d, IsDomainChar)
    requires |t| >= 2 && All(t, IsAsciiLetter)
    ensures MatchesDomain(r)
  {
    AllExcludes(t, IsAsciiLetter, '.');
    LastIndexOfBefore(d, '.', t);
    assert r[..|d|] == d && r[|d| + 1..] == t;
  }

  /** The characters ICU's `$` accepts as a final line terminator. */
  predicate IsLineTerminator(c: char) {
    c == '\n' || c == '\U{000B}' || c == '\U{000C}' || c == '\r'
    || c == '\U{0085}' || c == '\U{2028}' || c == '\U{2029}'
  }

  /** `isValidEmail`: the anchored pattern searched for in `email`. Outside
      multi-line mode ICU's `$` matches at the end of the input and also just
      before one final line terminator (CR LF counting as one). */
  predicate IsValidEmail(email: string) {
    || MatchesWhole(email)
    || (|email| >= 1 && IsLineTerminator(email[|email| - 1]) && MatchesWhole(email[..|email| - 1]))
    || (|email| >= 2 && email[|email| - 2..] == "\r\n" && MatchesWhole(email[..|email| - 2]))
  }

  /** Every line terminator is whitespace, so a trimmed string never ends
      in one. */
  lemma LineTerminatorIsWs(c: char)
    ensures IsLineTerminator(c) ==> IsWs(c)
  {
  }

  /** For a string that does not end in a line terminator, which is every
      string the save path checks, the check is exactly the grammar. */
  lemma ValidEmailIsGrammar(email: string)
    requires email == [] || !IsLineTerminator(email[|email| - 1])
    ensures IsValidEmail(email) <==> InGrammar(email)
  {
    MatcherCorrect(email);
    CrLfEndsInTerminator(email);
  }

  /** A passing string that does not end in whitespace, such as a trimmed
      one, is in the grammar. */
  lemma TrimmedValidEmailInGrammar(email: string)
    requires email != [] && !IsWs(email[|email| - 1]) && IsValidEmail(email)
    ensures InGrammar(email)
  {
    LineTerminatorIsWs(email[|email| - 1]);
    ValidEmailIsGrammar(email);
  }

  lemma CrLfEndsInTerminator(email: string)
    ensures |email| >= 2 && email[|email| - 2..] == "\r\n" ==> IsLineTerminator(email[|email| - 1])
  {
    if |email| >= 2 && email[|email| - 2..] == "\r\n" {
      assert email[|email| - 2..][1] == '\n';
    }
  }

  /** An email in the grammar starts with a local-part character, which is
      not whitespace. */
  lemma GrammarStartsClean(s: string)
    requires InGrammar(s)
    ensures s != [] && !IsWs(s[0])
  {
    var l, d, t :| Shape(s, l, d, t);
    assert s[0] == l[0] && IsLocalChar(l[0]);
  }

  /** A trailing newline is tolerated by the anchored pattern. */
  lemma TrailingNewlineAccepted(email: string)
    requires InGrammar(email)
    ensures IsValidEmail(email + "\n")
  {
    MatcherCorrect(email);
    assert (email + "\n")[..|email|] == email;
  }

  /** A grammar string holds exactly one at sign. */
  lemma {:induction false} GrammarHasOneAt(s: string)
    requires InGrammar(s)
    ensures multiset(s)['@'] == 1
  {
    var l, d, t :| Shape(s, l, d, t);
    AllExcludes(l, IsLocalChar, '@');
    AllExcludes(d, IsDomainChar, '@');
    AllExcludes(t, IsAsciiLetter, '@');
    assert multiset(s) == multiset(l) + multiset("@") + multiset(d) + multiset(".") + multiset(t);
  }

  /** A grammar string holds no whitespace, line feeds included. */
  lemma GrammarLineFree(s: string)
    requires InGrammar(s)
    ensures forall i :: 0 <= i < |s| ==> !IsWs(s[i])
  {
    var l, d, t :| Shape(s, l, d, t);
    forall i | 0 <= i < |s| ensures !IsWs(s[i]) {
      if i < |l| {
        assert s[i] == l[i] && IsLocalChar(l[i]);
      } else if |l| < i < |l| + 1 + |d| {
        assert s[i] == d[i - |l| - 1] && IsDomainChar(d[i - |l| - 1]);
      } else if |l| + 1 + |d| < i {
        assert s[i] == t[i - |l| - |d| - 2] && IsAsciiLetter(t[i - |l| - |d| - 2]);
      }
    }
  }

  /** A string without an at sign is never a valid email. */
  lemma NoAtInvalid(email: string)
    requires '@' !in email
    ensures !IsValidEmail(email)
  {
    if |email| >= 1 { assert '@' !in email[..|email| - 1]; }
    if |email| >= 2 { assert '@' !in email[..|email| - 2]; }
  }

  /** A valid email that does not end in a line terminator ends in at
      least two ASCII letters. */
  lemma ValidEmailEndsInTld(email: string)
    requires IsValidEmail(email) && !IsLineTerminator(email[|email| - 1])
    ensures |email| >= 2
    ensures IsAsciiLetter(email[|email| - 1]) && IsAsciiLetter(email[|email| - 2])
  {
    ValidEmailIsGrammar(email);
    var l, d, t :| Shape(email, l, d, t);
    assert email[|email| - 1] == t[|t| - 1] && email[|email| - 2] == t[|t| - 2];
  }
}

=== FILE: optional.dfy ===
/** Swift's `Optional`: the model's stand-in for `String?`. */
module Optional {

  datatype Option<+T> = None | Some(value: T) {

    /** Swift's `x ?? default`. */
    function GetOr(default: T): T {
      match this
      case Some(v) => v
      case None => default
    }
  }
}

=== FILE: qr_payload.dfy ===
/** The text `generateQRCode` hands to the QR image generator: the four
    fields of the committed record, one per line. The app has no decoder;
    the scanner shows the scanned text as it is. */
module QrPayload {
  import opened Optional
  import opened Text
  import opened UserModel
  import ViewModel
  import Email

  /** The payload: first name, last name, phone and email (empty when
      absent), separated by line feeds. */
  function Payload(u: UserData): string
  {
    u.firstName + "\n" + u.lastName + "\n" + u.phoneNumber + "\n" + u.email.GetOr("")
  }

  /** The four field texts in payload order. */
  function Fields(u: UserData): seq<string> {
    [u.firstName, u.lastName, u.phoneNumber, u.email.GetOr("")]
  }

  /** The payload is the fields joined by line feeds. */
  lemma PayloadIsJoin(u: UserData)
    ensures Payload(u) == Join(Fields(u), '\n')
  {
    var fs := Fields(u);
    assert Join(fs[3..], '\n') == fs[3];
    assert Join(fs[2..], '\n') == fs[2] + "\n" + fs[3];
    assert Join(fs[1..], '\n') == fs[1] + "\n" + fs[2] + "\n" + fs[3];
  }

  /** The payload's line count is the sum of the fields' piece counts, so
      at least four; with `Text.SplitCount`, each field adds one piece per
      line feed it holds. */
  lemma PayloadLineCount(u: UserData)
    ensures |Split(Payload(u), '\n')| ==
      |Split(u.firstName, '\n')| + |Split(u.lastName, '\n')|
      + |Split(u.phoneNumber, '\n')| + |Split(u.email.GetOr(""), '\n')|
    ensures |Split(Payload(u), '\n')| >= 4
  {
    var f, l, p, e := u.firstName, u.lastName, u.phoneNumber, u.email.GetOr("");
    SplitConcat(f + "\n" + l + "\n" + p, e, '\n');
    SplitConcat(f + "\n" + l, p, '\n');
    SplitConcat(f, l, '\n');
  }

  /** When no field holds a line feed, splitting the payload on line feeds
      gives back exactly the four fields. */
  lemma PayloadSplits(u: UserData)
    requires forall j :: 0 <= j < 4 ==> '\n' !in Fields(u)[j]
    ensures Split(Payload(u), '\n') == Fields(u)
  {
    PayloadIsJoin(u);
    SplitJoin(Fields(u), '\n');
  }

  /** A phone that passed validation holds no line feed, and neither does
      an email in the email grammar: only the names can shift the lines. */
  lemma SavedFieldsLineFree(s: ViewModel.State)
    requires ViewModel.SaveData(s).validationError.None?
    ensures '\n' !in ViewModel.SaveData(s).userData.phoneNumber
    ensures var e := ViewModel.SaveData(s).userData.email;
      e.Some? && Email.InGrammar(e.value) ==> '\n' !in e.value
  {
    ViewModel.SavedIsValid(s);
    ValidFieldsLineFree(ViewModel.SaveData(s).userData);
  }

  lemma ValidFieldsLineFree(u: UserData)
    requires ViewModel.ValidProfile(u)
    ensures '\n' !in u.phoneNumber
    ensures u.email.Some? && Email.InGrammar(u.email.value) ==> '\n' !in u.email.value
  {
    ViewModel.ValidPhoneHasNoNewline(u.phoneNumber);
    if u.email.Some? && Email.InGrammar(u.email.value) {
      Email.GrammarLineFree(u.email.value);
    }
  }

  /** Names are only trimmed at the ends: sanitizing keeps an inner line
      feed. */
  lemma InnerLineFeedKept(a: string, b: string)
    requires a != [] && b != [] && !IsWs(a[0]) && !IsWs(b[|b| - 1])
    requires |a| + |b| + 1 <= ViewModel.NameMax
    ensures ViewModel.Sanitize(a + "\n" + b, ViewModel.NameMax) == a + "\n" + b
  {
    var v := a + "\n" + b;
    assert v[0] == a[0] && v[|v| - 1] == b[|b| - 1];
    ViewModel.SanitizeKeeps(v, ViewModel.NameMax);
  }

  /** A saved name holding a line feed pushes the payload past four lines,
      so its lines no longer line up with the fields. */
  lemma InnerLineFeedShiftsFields(s: ViewModel.State)
    requires ViewModel.SaveData(s).validationError.None?
    requires '\n' in ViewModel.SaveData(s).userData.firstName
    ensures |Split(Payload(ViewModel.SaveData(s).userData), '\n')| > 4
    ensures Split(Payload(ViewModel.SaveData(s).userData), '\n') != Fields(ViewModel.SaveData(s).userData)
  {
    var u := ViewModel.SaveData(s).userData;
    PayloadLineCount(u);
    var i := IndexOf(u.firstName, '\n').value;
    assert |Split(u.firstName, '\n')| >= 2;
  }

  /** A concrete instance: first name "Ana", a line feed, "Maria". */
  lemma InnerLineFeedExample()
    ensures Split(Payload(UserData("600", "Ana\nMaria", "Gomez", None)), '\n')
      == ["Ana", "Maria", "Gomez", "600", ""]
  {
    var u := UserData("600", "Ana\nMaria", "Gomez", None);
    var parts := ["Ana", "Maria", "Gomez", "600", ""];
    assert Join(parts[4..], '\n') == "";
    assert Join(parts[3..], '\n') == "600\n";
    assert Join(parts[2..], '\n') == "Gomez\n600\n";
    assert Join(parts[1..], '\n') == "Maria\nGomez\n600\n";
    assert Payload(u) == Join(parts, '\n');
    SplitJoin(parts, '\n');
  }
}

=== FILE: storage_service.dfy ===
/** `StorageService`: the profile kept under four fixed keys of the
    platform's key-value defaults store, modelled as a total in-memory map
    from key to string. */
module Storage {
  import opened Optional
  import opened UserModel

  type Store = map<string, string>

  const NameKey := "userName"
  /** The property is called `lastName` in the service; its value is this key. */
  const LastNameKey := "userLastName"
  const PhoneKey := "userPhone"
  const EmailKey := "userEmail"

  const ProfileKeys: set<string> := {NameKey, LastNameKey, PhoneKey, EmailKey}

  /** `string(forKey:)`: the stored string, or nil when the key is absent. */
  function Get(store: Store, key: string): Option<string> {
    if key in store then Some(store[key]) else None
  }

  /** `set(_:forKey:)` with an optional string. Storing nil removes the key:
      this is the defaults store's documented behaviour, assumed here. */
  function Put(store: Store, key: string, value: Option<string>): (r: Store)
    ensures Get(r, key) == value
    ensures forall k :: k != key ==> Get(r, k) == Get(store, k)
  {
    match value
    case Some(v) => store[key := v]
    case None => store - {key}
  }

  /** `saveData`: writes each field under its own key. */
  function SaveData(store: Store, u: UserData): (r: Store)
    ensures Get(r, NameKey) == Some(u.firstName)
    ensures Get(r, LastNameKey) == Some(u.lastName)
    ensures Get(r, PhoneKey) == Some(u.phoneNumber)
    ensures Get(r, EmailKey) == u.email
    ensures forall k :: k !in ProfileKeys ==> Get(r, k) == Get(store, k)
  {
    var s1 := Put(store, NameKey, Some(u.firstName));
    var s2 := Put(s1, LastNameKey, Some(u.lastName));
    var s3 := Put(s2, PhoneKey, Some(u.phoneNumber));
    Put(s3, EmailKey, u.email)
  }

  /** `loadData`: reads each field back, an absent name or phone reading as
      the empty string and an absent email as nil. Nothing is validated. */
  function LoadData(store: Store): (u: UserData)
    ensures NameKey in store ==> u.firstName == store[NameKey]
    ensures NameKey !in store ==> u.firstName == ""
    ensures LastNameKey in store ==> u.lastName == store[LastNameKey]
    ensures LastNameKey !in store ==> u.lastName == ""
    ensures PhoneKey in store ==> u.phoneNumber == store[PhoneKey]
    ensures PhoneKey !in store ==> u.phoneNumber == ""
    ensures u.email == Get(store, EmailKey)
  {
    UserData(
      Get(store, PhoneKey).GetOr(""),
      Get(store, NameKey).GetOr(""),
      Get(store, LastNameKey).GetOr(""),
      Get(store, EmailKey))
  }

  /** `deleteData`: removes the four profile keys. */
  function DeleteData(store: Store): (r: Store)
    ensures forall k :: k in ProfileKeys ==> k !in r
    ensures forall k :: k !in ProfileKeys ==> Get(r, k) == Get(store, k)
  {
    store - ProfileKeys
  }

  /** Loading after saving returns exactly the saved record, whatever it
      holds, an absent email included. */
  lemma LoadAfterSave(store: Store, u: UserData)
    ensures LoadData(SaveData(store, u)) == u
  {
    var r := SaveData(store, u);
    assert Get(r, NameKey) == Some(u.firstName);
    assert Get(r, LastNameKey) == Some(u.lastName);
    assert Get(r, PhoneKey) == Some(u.phoneNumber);
  }

  /** A store holding none of the profile keys loads as the empty record. */
  lemma LoadMissing(store: Store)
    requires forall k :: k in ProfileKeys ==> k !in store
    ensures LoadData(store) == EmptyUser
  {
    assert NameKey in ProfileKeys && LastNameKey in ProfileKeys;
    assert PhoneKey in ProfileKeys && EmailKey in ProfileKeys;
  }

  /** Loading after deleting returns the empty record. */
  lemma LoadAfterDelete(store: Store)
    ensures LoadData(DeleteData(store)) == EmptyUser
  {
    LoadMissing(DeleteData(store));
  }

  /** Deleting twice leaves the same store as deleting once. */
  lemma DeleteIdempotent(store: Store)
    ensures DeleteData(DeleteData(store)) == DeleteData(store)
  {
  }

  /** A later save fully replaces an earlier one. */
  lemma SaveOverwrites(store: Store, u: UserData, v: UserData)
    ensures SaveData(SaveData(store, u), v) == SaveData(store, v)
  {
    var a := SaveData(SaveData(store, u), v);
    var b := SaveData(store, v);
    assert forall k :: Get(a, k) == Get(b, k);
    assert forall k :: k in a <==> Get(a, k).Some?;
    assert forall k :: k in b <==> Get(b, k).Some?;
    assert a.Keys == b.Keys;
  }

  /** Deleting after saving leaves the same store as deleting alone: the
      save touches nothing outside the profile keys. */
  lemma DeleteAfterSave(store: Store, u: UserData)
    ensures DeleteData(SaveData(store, u)) == DeleteData(store)
  {
    var a := DeleteData(SaveData(store, u));
    var b := DeleteData(store);
    assert forall k :: k in a <==> Get(a, k).Some?;
    assert forall k :: k in b <==> Get(b, k).Some?;
    assert a.Keys == b.Keys;
  }
}

=== FILE: text.dfy ===
/** Character classes and the string operations the app borrows from
    Foundation: trimming a character set from both ends, taking a prefix,
    searching for a character, and splitting on a separator. Strings are
    sequences of Unicode scalar values. */
module Text {
  import opened Optional

  /** Foundation's `whitespacesAndNewlines`: Unicode general category Z*
      plus U+0009 to U+000D and U+0085. */
  predicate IsWs(c: char) {
    || ('\t' <= c <= '\r')
    || c == ' ' || c == '\U{0085}' || c == '\U{00A0}' || c == '\U{1680}'
    || ('\U{2000}' <= c <= '\U{200A}')
    || c == '\U{2028}' || c == '\U{2029}' || c == '\U{202F}' || c == '\U{205F}'
    || c == '\U{3000}'
  }

  predicate IsAsciiLetter(c: char) {
    ('A' <= c <= 'Z') || ('a' <= c <= 'z')
  }

  predicate IsAsciiDigit(c: char) {
    '0' <= c <= '9'
  }

  /** Foundation's `alphanumerics`, restricted to ASCII. */
  predicate IsAlnum(c: char) {
    IsAsciiLetter(c) || IsAsciiDigit(c)
  }

  /** Every character of `s` satisfies `p` (Swift's `allSatisfy`). */
  predicate All(s: string, p: char -> bool) {
    forall i :: 0 <= i < |s| ==> p(s[i])
  }

  /** A character outside the class does not occur in a string drawn from it. */
  lemma AllExcludes(s: string, p: char -> bool, c: char)
    requires All(s, p) && !p(c)
    ensures c !in s
  {
  }

  /** Removes the leading characters satisfying `drop`. */
  function TrimStart(s: string, drop: char -> bool): (r: string)
    ensures |r| <= |s| && r == s[|s| - |r|..]
    ensures forall i :: 0 <= i < |s| - |r| ==> drop(s[i])
    ensures r != [] ==> !drop(r[0])
    decreases |s|
  {
    if s != [] && drop(s[0]) then TrimStart(s[1..], drop) else s
  }

  /** Removes the trailing characters satisfying `drop`. */
  function TrimEnd(s: string, drop: char -> bool): (r: string)
    ensures |r| <= |s| && r == s[..|r|]
    ensures forall i :: |r| <= i < |s| ==> drop(s[i])
    ensures r != [] ==> !drop(r[|r| - 1])
    decreases |s|
  {
    if s != [] && drop(s[|s| - 1]) then TrimEnd(s[..|s| - 1], drop) else s
  }

  /** `r` is the slice of `s` starting at `k` with everything before and
      after it in the dropped set, and it neither starts nor ends with a
      dropped character. */
  ghost predicate TrimmedAt(s: string, drop: char -> bool, k: int, r: string) {
    && 0 <= k && k + |r| <= |s|
    && r == s[k..k + |r|]
    && (forall i :: 0 <= i < k ==> drop(s[i]))
    && (forall i :: k + |r| <= i < |s| ==> drop(s[i]))
    && (r != [] ==> !drop(r[0]) && !drop(r[|r| - 1]))
  }

  /** Foundation's `trimmingCharacters(in:)`. */
  function Trim(s: string, drop: char -> bool): (r: string)
    ensures exists k :: TrimmedAt(s, drop, k, r)
  {
    var t := TrimStart(s, drop);
    var r := TrimEnd(t, drop);
    TrimBothEnds(s, drop, t, r);
    r
  }

  /** Trimming the end of a trimmed start leaves the slice `TrimmedAt`
      describes. */
  lemma TrimBothEnds(s: string, drop: char -> bool, t: string, r: string)
    requires |t| <= |s| && t == s[|s| - |t|..]
    requires forall i :: 0 <= i < |s| - |t| ==> drop(s[i])
    requires t != [] ==> !drop(t[0])
    requires |r| <= |t| && r == t[..|r|]
    requires forall i :: |r| <= i < |t| ==> drop(t[i])
    requires r != [] ==> !drop(r[|r| - 1])
    ensures TrimmedAt(s, drop, |s| - |t|, r)
  {
    var k := |s| - |t|;
    assert r == s[k..k + |r|];
    forall i | k + |r| <= i < |s| ensures drop(s[i]) {
      assert s[i] == t[i - k];
    }
  }

  /** The trimmed slice is unique: any slice meeting `TrimmedAt` is the
      result of `Trim`. */
  lemma TrimUnique(s: string, drop: char -> bool, k: int, r: string)
    requires TrimmedAt(s, drop, k, r)
    ensures r == Trim(s, drop)
  {
    var t := Trim(s, drop);
    var k' :| TrimmedAt(s, drop, k', t);
    if r == [] || t == [] {
      assert r == [] && t == [];
    } else {
      // Both slices start at the first kept character and end at the last.
      assert k == k' && |r| == |t|;
    }
  }

  /** Swift's `String(s.prefix(n))`: at most the first `n` characters. */
  function Prefix(s: string, n: nat): (r: string)
    ensures |r| <= n && |r| <= |s| && r == s[..|r|]
    ensures |s| <= n ==> r == s
    ensures n < |s| ==> |r| == n
  {
    if |s| <= n then s else s[..n]
  }

  /** Position of the first occurrence of `c`. */
  function IndexOf(s: string, c: char): (r: Option<nat>)
    ensures r.None? ==> c !in s
    ensures r.Some? ==> r.value < |s| && s[r.value] == c && c !in s[..r.value]
  {
    if s == [] then None
    else if s[0] == c then Some(0)
    else
      match IndexOf(s[1..], c)
      case None => None
      case Some(i) =>
        assert s[..i + 1] == [s[0]] + s[1..][..i];
        Some(i + 1)
  }

  /** Position of the last occurrence of `c`. */
  function LastIndexOf(s: string, c: char): (r: Option<nat>)
    ensures r.None? ==> c !in s
    ensures r.Some? ==> r.value < |s| && s[r.value] == c && c !in s[r.value + 1..]
  {
    if s == [] then None
    else if s[|s| - 1] == c then Some(|s| - 1)
    else
      var init := s[..|s| - 1];
      match LastIndexOf(init, c)
      case None =>
        assert s == init + [s[|s| - 1]];
        None
      case Some(i) =>
        assert s[i + 1..] == init[i + 1..] + [s[|s| - 1]];
        Some(i)
  }
  /** The first `c` of `a + [c] + b` is the one after `a` when `a` holds none. */
  lemma IndexOfAfter(a: string, c: char, b: string)
    requires c !in a
    ensures IndexOf(a + [c] + b, c) == Some(|a|)
  {
    var s := a + [c] + b;
    assert s[|a|] == c;
  }

  /** The last `c` of `a + [c] + b` is the one before `b` when `b` holds none. */
  lemma LastIndexOfBefore(a: string, c: char, b: string)
    requires c !in b
    ensures LastIndexOf(a + [c] + b, c) == Some(|a|)
  {
    var s := a + [c] + b;
    assert s[|a|] == c;
    assert s[|a| + 1..] == b;
  }


  /** Joins `parts` with `sep` between consecutive parts. */
  function Join(parts: seq<string>, sep: char): string
  {
    if |parts| == 0 then []
    else if |parts| == 1 then parts[0]
    else parts[0] + [sep] + Join(parts[1..], sep)
  }

  /** Foundation's `components(separatedBy:)` for a one-character
      separator: the pieces between separators, including empty ones. */
  function Split(s: string, sep: char): (parts: seq<string>)
    ensures |parts| >= 1
    ensures forall j :: 0 <= j < |parts| ==> sep !in parts[j]
    decreases |s|
  {
    match IndexOf(s, sep)
    case None => [s]
    case Some(i) => [s[..i]] + Split(s[i + 1..], sep)
  }

  /** Joining the pieces with the separator gives back the string. */
  lemma {:induction false} JoinSplit(s: string, sep: char)
    ensures Join(Split(s, sep), sep) == s
    decreases |s|
  {
    match IndexOf(s, sep)
    case None =>
    case Some(i) =>
      JoinSplit(s[i + 1..], sep);
      JoinSplitStep(s, sep, i);
  }

  lemma JoinSplitStep(s: string, sep: char, i: nat)
    requires IndexOf(s, sep) == Some(i)
    requires Join(Split(s[i + 1..], sep), sep) == s[i + 1..]
    ensures Join(Split(s, sep), sep) == s
  {
    var rest := Split(s[i + 1..], sep);
    assert Split(s, sep) == [s[..i]] + rest;
    assert ([s[..i]] + rest)[1..] == rest;
    assert s == s[..i] + [sep] + s[i + 1..];
  }

  /** Splitting undoes joining, provided no part contains the separator. */
  lemma {:induction false} SplitJoin(parts: seq<string>, sep: char)
    requires |parts| >= 1
    requires forall j :: 0 <= j < |parts| ==> sep !in parts[j]
    ensures Split(Join(parts, sep), sep) == parts
    decreases |parts|
  {
    if |parts| > 1 {
      var tail := Join(parts[1..], sep);
      var s := parts[0] + [sep] + tail;
      SplitJoin(parts[1..], sep);
      assert s[|parts[0]|] == sep;
      assert s[..|parts[0]|] == parts[0];
      assert IndexOf(s, sep) == Some(|parts[0]|);
      assert s[|parts[0]| + 1..] == tail;
      assert parts == [parts[0]] + parts[1..];
    }
  }

  /** A string without the separator splits into itself alone. */
  lemma SplitNoSeparator(s: string, sep: char)
    requires sep !in s
    ensures Split(s, sep) == [s]
  {
  }

  /** Splitting distributes over a separator: the pieces of `a` then the
      pieces of `b`. */
  lemma {:induction false} SplitConcat(a: string, b: string, sep: char)
    ensures Split(a + [sep] + b, sep) == Split(a, sep) + Split(b, sep)
    decreases |a|
  {
    if sep !in a {
      SplitAtFirst(a, b, sep);
    } else {
      var i := IndexOf(a, sep).value;
      SplitConcat(a[i + 1..], b, sep);
      SplitConcatStep(a, b, sep, i);
    }
  }

  lemma SplitConcatStep(a: string, b: string, sep: char, i: nat)
    requires IndexOf(a, sep) == Some(i)
    requires Split(a[i + 1..] + [sep] + b, sep) == Split(a[i + 1..], sep) + Split(b, sep)
    ensures Split(a + [sep] + b, sep) == Split(a, sep) + Split(b, sep)
  {
    SplitInside(a, b, sep, i);
    Associative([a[..i]], Split(a[i + 1..], sep), Split(b, sep));
  }

  lemma Associative<T>(x: seq<T>, y: seq<T>, z: seq<T>)
    ensures x + (y + z) == (x + y) + z
  {
  }

  lemma SplitAtFirst(a: string, b: string, sep: char)
    requires sep !in a
    ensures Split(a + [sep] + b, sep) == [a] + Split(b, sep)
    ensures Split(a, sep) == [a]
  {
    var s := a + [sep] + b;
    assert s[|a|] == sep && s[..|a|] == a;
    assert IndexOf(s, sep) == Some(|a|);
    assert s[|a| + 1..] == b;
  }

  lemma SplitInside(a: string, b: string, sep: char, i: nat)
    requires IndexOf(a, sep) == Some(i)
    ensures Split(a + [sep] + b, sep) == [a[..i]] + Split(a[i + 1..] + [sep] + b, sep)
    ensures Split(a, sep) == [a[..i]] + Split(a[i + 1..], sep)
  {
    SplitInsideConcat(a, b, sep, i);
  }

  /** The first separator of `a` is also the first of `a + [sep] + b`. */
  lemma SplitInsideConcat(a: string, b: string, sep: char, i: nat)
    requires IndexOf(a, sep) == Some(i)
    ensures Split(a + [sep] + b, sep) == [a[..i]] + Split(a[i + 1..] + [sep] + b, sep)
  {
    var s := a + [sep] + b;
    assert s[..i + 1] == a[..i + 1];
    assert IndexOf(s, sep) == Some(i);
    assert s[..i] == a[..i];
    assert s[i + 1..] == a[i + 1..] + [sep] + b;
  }

  /** Splitting yields one piece more than the separators in the string. */
  lemma {:induction false} SplitCount(s: string, sep: char)
    ensures |Split(s, sep)| == multiset(s)[sep] + 1
    decreases |s|
  {
    match IndexOf(s, sep)
    case None =>
      assert multiset(s)[sep] == 0;
    case Some(i) =>
      SplitCount(s[i + 1..], sep);
      SplitCountStep(s, sep, i);
  }

  lemma SplitCountStep(s: string, sep: char, i: nat)
    requires IndexOf(s, sep) == Some(i)
    requires |Split(s[i + 1..], sep)| == multiset(s[i + 1..])[sep] + 1
    ensures |Split(s, sep)| == multiset(s)[sep] + 1
  {
    var a, b := s[..i], s[i + 1..];
    assert s == a + [sep] + b;
    assert Split(s, sep) == [a] + Split(b, sep);
    CountAround(a, sep, b);
    assert sep !in a;
  }

  /** Occurrences of `c` in `a + [c] + b`. */
  lemma CountAround(a: string, c: char, b: string)
    ensures multiset(a + [c] + b)[c] == multiset(a)[c] + 1 + multiset(b)[c]
  {
    assert multiset(a + [c] + b) == multiset(a) + multiset{c} + multiset(b);
  }

}

=== FILE: theme.dfy ===
/** `Color.init(hex:)` up to the integer channels: the hex text is stripped
    of non-alphanumerics at both ends, read as a hexadecimal number, and
    split into alpha, red, green and blue by its stripped length. On the
    non-negative integers involved, `x >> k` is `x / 2^k` and `x & (2^k - 1)`
    is `x % 2^k`; the model writes the shifts and masks that way. */
module HexColor {
  import opened Text

  predicate IsNotAlnum(c: char) {
    !IsAlnum(c)
  }

  predicate IsHexDigit(c: char) {
    ('0' <= c <= '9') || ('a' <= c <= 'f') || ('A' <= c <= 'F')
  }

  function DigitValue(c: char): (v: nat)
    requires IsHexDigit(c)
    ensures v < 16
  {
    if '0' <= c <= '9' then c as int - '0' as int
    else if 'a' <= c <= 'f' then c as int - 'a' as int + 10
    else c as int - 'A' as int + 10
  }

  function Pow16(n: nat): (p: nat)
    ensures p >= 1
  {
    if n == 0 then 1 else 16 * Pow16(n - 1)
  }

  /** The value of a string of hex digits, most significant first. */
  function HexValue(s: string): (v: nat)
    requires All(s, IsHexDigit)
    ensures v < Pow16(|s|)
    decreases |s|
  {
    if s == [] then 0
    else
      var init := s[..|s| - 1];
      assert All(init, IsHexDigit);
      HexValue(init) * 16 + DigitValue(s[|s| - 1])
  }

  /** The longest prefix made of hex digits. */
  function LeadingHexRun(s: string): (r: string)
    ensures |r| <= |s| && r == s[..|r|] && All(r, IsHexDigit)
    ensures |r| < |s| ==> !IsHexDigit(s[|r|])
    decreases |s|
  {
    if s != [] && IsHexDigit(s[0]) then [s[0]] + LeadingHexRun(s[1..]) else []
  }

  /** `Scanner.scanHexInt64`, taken as the value of the leading run of hex
      digits (zero when there is none). */
  function ScanHex(s: string): (n: nat)
    ensures n < Pow16(|s|)
  {
    var run := LeadingHexRun(s);
    PowMonotone(|run|, |s|);
    HexValue(run)
  }

  lemma {:induction false} PowMonotone(m: nat, n: nat)
    requires m <= n
    ensures Pow16(m) <= Pow16(n)
    decreases n
  {
    if m < n {
      PowMonotone(m, n - 1);
    }
  }

  datatype Argb = Argb(a: nat, r: nat, g: nat, b: nat)

  /** The stripped text the length switch looks at. */
  function Stripped(hex: string): string {
    Trim(hex, IsNotAlnum)
  }

  /** Length 3, RGB with 4 bits per channel:
      `(255, (n >> 8) * 17, (n >> 4 & 0xF) * 17, (n & 0xF) * 17)`. */
  function Rgb12(n: nat): (c: Argb)
    requires n < 0x1000
    ensures c.a == 255 && c.r <= 255 && c.g <= 255 && c.b <= 255
  {
    Argb(255, (n / 0x100) * 17, ((n / 0x10) % 0x10) * 17, (n % 0x10) * 17)
  }

  /** Length 6, RGB with 8 bits per channel:
      `(255, n >> 16, n >> 8 & 0xFF, n & 0xFF)`. */
  function Rgb24(n: nat): (c: Argb)
    requires n < 0x100_0000
    ensures c.a == 255 && c.r <= 255 && c.g <= 255 && c.b <= 255
  {
    Argb(255, n / 0x1_0000, (n / 0x100) % 0x100, n % 0x100)
  }

  /** Length 8, alpha first:
      `(n >> 24, n >> 16 & 0xFF, n >> 8 & 0xFF, n & 0xFF)`. */
  function Argb32(n: nat): (c: Argb)
    requires n < 0x1_0000_0000
    ensures c.a <= 255 && c.r <= 255 && c.g <= 255 && c.b <= 255
  {
    Argb(n / 0x100_0000, (n / 0x1_0000) % 0x100, (n / 0x100) % 0x100, n % 0x100)
  }

  /** The channels `Color.init(hex:)` computes, each in 0 to 255 whatever
      the text: a shorter digit run only makes the number smaller. */
  function FromHex(hex: string): (c: Argb)
    ensures c.a <= 255 && c.r <= 255 && c.g <= 255 && c.b <= 255
    ensures |Stripped(hex)| !in {3, 6, 8} ==> c == Argb(255, 0, 0, 0)
    ensures |Stripped(hex)| in {3, 6} ==> c.a == 255
  {
    var h := Stripped(hex);
    var n := ScanHex(h);
    if |h| == 3 then
      assert Pow16(3) == 0x1000;
      Rgb12(n)
    else if |h| == 6 then
      assert Pow16(6) == 0x100_0000;
      Rgb24(n)
    else if |h| == 8 then
      assert Pow16(8) == 0x1_0000_0000;
      Argb32(n)
    else
      Argb(255, 0, 0, 0)
  }

  /** Reading two digit strings one after the other. */
  lemma {:induction false} HexValueConcat(a: string, b: string)
    requires All(a, IsHexDigit) && All(b, IsHexDigit)
    ensures All(a + b, IsHexDigit)
    ensures HexValue(a + b) == HexValue(a) * Pow16(|b|) + HexValue(b)
    decreases |b|
  {
    assert All(a + b, IsHexDigit);
    if b == [] {
      assert a + b == a;
    } else {
      var b' := b[..|b| - 1];
      var d := DigitValue(b[|b| - 1]);
      assert (a + b)[..|a + b| - 1] == a + b';
      assert All(b', IsHexDigit);
      HexValueConcat(a, b');
      assert Pow16(|b|) == 16 * Pow16(|b'|);
      assert HexValue(a + b) == HexValue(a + b') * 16 + d;
      assert HexValue(b) == HexValue(b') * 16 + d;
      Regroup(HexValue(a), HexValue(b'), Pow16(|b'|), d);
    }
  }

  lemma Regroup(x: int, y: int, p: int, d: int)
    ensures (x * p + y) * 16 + d == x * (16 * p) + (y * 16 + d)
  {
  }

  /** A stripped text made of hex digits is read whole. */
  lemma ScanAllHex(h: string)
    requires All(h, IsHexDigit)
    ensures ScanHex(h) == HexValue(h)
  {
    var run := LeadingHexRun(h);
    assert run == h;
  }

  /** Splits six hex digits into three pairs: `n = X * 2^16 + Y * 2^8 + Z`. */
  lemma SixDigitValue(h: string)
    requires |h| == 6 && All(h, IsHexDigit)
    ensures All(h[..2], IsHexDigit) && All(h[2..4], IsHexDigit) && All(h[4..], IsHexDigit)
    ensures HexValue(h) ==
      HexValue(h[..2]) * 0x1_0000 + HexValue(h[2..4]) * 0x100 + HexValue(h[4..])
  {
    var x, y, z := h[..2], h[2..4], h[4..];
    assert All(x, IsHexDigit) && All(y, IsHexDigit) && All(z, IsHexDigit);
    assert h == x + (y + z);
    HexValueConcat(y, z);
    HexValueConcat(x, y + z);
    assert Pow16(2) == 0x100 && Pow16(4) == 0x1_0000;
  }

  /** For six hex digits each channel is the value of its own digit pair. */
  lemma SixDigitChannels(h: string)
    requires |h| == 6 && All(h, IsHexDigit)
    ensures All(h[..2], IsHexDigit) && All(h[2..4], IsHexDigit) && All(h[4..], IsHexDigit)
    ensures Rgb24(HexValue(h)) == Argb(255, HexValue(h[..2]), HexValue(h[2..4]), HexValue(h[4..]))
  {
    SixDigitValue(h);
    assert Pow16(2) == 0x100;
    PairChannels(HexValue(h), HexValue(h[..2]), HexValue(h[2..4]), HexValue(h[4..]));
  }

  lemma PairChannels(n: nat, x: nat, y: nat, z: nat)
    requires x < 0x100 && y < 0x100 && z < 0x100
    requires n == x * 0x1_0000 + y * 0x100 + z
    ensures n < 0x100_0000
    ensures n / 0x1_0000 == x && (n / 0x100) % 0x100 == y && n % 0x100 == z
  {
    assert n / 0x100 == x * 0x100 + y;
  }

  /** For eight hex digits alpha comes first, then red, green and blue,
      each the value of its own digit pair. */
  lemma EightDigitChannels(h: string)
    requires |h| == 8 && All(h, IsHexDigit)
    ensures All(h[..2], IsHexDigit) && All(h[2..], IsHexDigit)
    ensures var c := Argb32(HexValue(h));
      c.a == HexValue(h[..2]) && c == Rgb24(HexValue(h[2..])).(a := c.a)
  {
    var x, w := h[..2], h[2..];
    assert All(x, IsHexDigit) && All(w, IsHexDigit);
    assert h == x + w;
    HexValueConcat(x, w);
    assert Pow16(2) == 0x100 && Pow16(6) == 0x100_0000;
    AlphaChannel(HexValue(h), HexValue(x), HexValue(w));
  }

  lemma AlphaChannel(n: nat, x: nat, w: nat)
    requires x < 0x100 && w < 0x100_0000
    requires n == x * 0x100_0000 + w
    ensures n < 0x1_0000_0000
    ensures Argb32(n) == Rgb24(w).(a := x)
  {
    assert n / 0x100_0000 == x;
    assert n / 0x1_0000 == x * 0x100 + w / 0x1_0000;
    assert (n / 0x1_0000) % 0x100 == w / 0x1_0000;
    assert n / 0x100 == x * 0x1_0000 + w / 0x100;
    assert (n / 0x100) % 0x100 == (w / 0x100) % 0x100;
    assert n % 0x100 == w % 0x100;
  }

  /** For three hex digits each channel is its digit repeated: the digit's
      value times 17. */
  lemma ThreeDigitChannels(h: string)
    requires |h| == 3 && All(h, IsHexDigit)
    ensures Rgb12(HexValue(h)) ==
      Argb(255, DigitValue(h[0]) * 17, DigitValue(h[1]) * 17, DigitValue(h[2]) * 17)
  {
    ThreeDigitValue(h);
    NibbleChannels(HexValue(h), DigitValue(h[0]), DigitValue(h[1]), DigitValue(h[2]));
  }

  lemma ThreeDigitValue(h: string)
    requires |h| == 3 && All(h, IsHexDigit)
    ensures HexValue(h) == DigitValue(h[0]) * 0x100 + DigitValue(h[1]) * 0x10 + DigitValue(h[2])
  {
    var p1, p2 := h[..1], h[..2];
    assert p1[..0] == [] && p2[..1] == p1 && h[..2] == p2;
    assert All(p1, IsHexDigit) && All(p2, IsHexDigit);
    assert HexValue(p1) == DigitValue(h[0]);
    assert HexValue(p2) == HexValue(p1) * 16 + DigitValue(h[1]);
    assert HexValue(h) == HexValue(p2) * 16 + DigitValue(h[2]);
  }

  lemma NibbleChannels(n: nat, d0: nat, d1: nat, d2: nat)
    requires d0 < 0x10 && d1 < 0x10 && d2 < 0x10
    requires n == d0 * 0x100 + d1 * 0x10 + d2
    ensures n < 0x1000
    ensures Rgb12(n) == Argb(255, d0 * 17, d1 * 17, d2 * 17)
  {
    assert n / 0x10 == d0 * 0x10 + d1;
  }

  /** Whole-text form of the six-digit case, leading or trailing
      punctuation such as `#` allowed. */
  lemma FromHexSixDigits(hex: string)
    requires |Stripped(hex)| == 6 && All(Stripped(hex), IsHexDigit)
    ensures var h := Stripped(hex);
      FromHex(hex) == Argb(255, HexValue(h[..2]), HexValue(h[2..4]), HexValue(h[4..]))
  {
    ScanAllHex(Stripped(hex));
    SixDigitChannels(Stripped(hex));
  }

  /** Whole-text form of the three-digit case. */
  lemma FromHexThreeDigits(hex: string)
    requires |Stripped(hex)| == 3 && All(Stripped(hex), IsHexDigit)
    ensures var h := Stripped(hex);
      FromHex(hex) == Argb(255, DigitValue(h[0]) * 17, DigitValue(h[1]) * 17, DigitValue(h[2]) * 17)
  {
    ScanAllHex(Stripped(hex));
    ThreeDigitChannels(Stripped(hex));
  }

  /** Whole-text form of the eight-digit case: alpha from the first pair,
      the colour from the last six digits as in the six-digit case. */
  lemma FromHexEightDigits(hex: string)
    requires |Stripped(hex)| == 8 && All(Stripped(hex), IsHexDigit)
    ensures var h := Stripped(hex);
      && All(h[..2], IsHexDigit) && All(h[2..4], IsHexDigit)
      && All(h[4..6], IsHexDigit) && All(h[6..], IsHexDigit)
      && FromHex(hex) == Argb(HexValue(h[..2]), HexValue(h[2..4]), HexValue(h[4..6]), HexValue(h[6..]))
  {
    var h := Stripped(hex);
    ScanAllHex(h);
    EightDigitChannels(h);
    var w := h[2..];
    assert w[..2] == h[2..4] && w[2..4] == h[4..6] && w[4..] == h[6..];
    SixDigitChannels(w);
  }

  /** `qrDeepBlue`, written with or without the `#`, is opaque
      (58, 117, 255). */
  lemma DeepBlue()
    ensures FromHex("3A75FF") == Argb(255, 58, 117, 255)
    ensures FromHex("#3A75FF") == Argb(255, 58, 117, 255)
  {
    DeepBlueStripped();
    DeepBlueDigits();
    FromHexSixDigits("3A75FF");
    FromHexSixDigits("#3A75FF");
  }

  lemma DeepBlueStripped()
    ensures Stripped("3A75FF") == "3A75FF" && Stripped("#3A75FF") == "3A75FF"
  {
    DeepBluePlainStripped();
    DeepBlueSharpStripped();
  }

  /** Without the `#` there is nothing to strip. */
  lemma DeepBluePlainStripped()
    ensures Stripped("3A75FF") == "3A75FF"
  {
    var h := "3A75FF";
    assert h[0] == '3' && h[5] == 'F';
    assert TrimmedAt(h, IsNotAlnum, 0, h);
    TrimUnique(h, IsNotAlnum, 0, h);
  }

  /** The leading `#` is stripped. */
  lemma DeepBlueSharpStripped()
    ensures Stripped("#3A75FF") == "3A75FF"
  {
    var h := "3A75FF";
    var sharp := "#3A75FF";
    assert h[0] == '3' && h[5] == 'F';
    assert sharp[0] == '#';
    assert sharp[1..7] == h;
    assert TrimmedAt(sharp, IsNotAlnum, 1, h);
    TrimUnique(sharp, IsNotAlnum, 1, h);
  }

  lemma DeepBlueDigits()
    ensures All("3A75FF", IsHexDigit)
    ensures "3A75FF"[..2] == "3A" && "3A75FF"[2..4] == "75" && "3A75FF"[4..] == "FF"
    ensures All("3A", IsHexDigit) && All("75", IsHexDigit) && All("FF", IsHexDigit)
    ensures HexValue("3A") == 58 && HexValue("75") == 117 && HexValue("FF") == 255
  {
    var h := "3A75FF";
    assert h == ['3', 'A', '7', '5', 'F', 'F'];
    assert "3A"[..1] == "3" && "75"[..1] == "7" && "FF"[..1] == "F";
  }
}

=== FILE: user_data.dfy ===
/** The `UserData` record: the user's own contact card. */
module UserModel {
  import opened Optional
  import opened Text

  /** Phone and both names are always present; email is the only optional
      field. */
  datatype UserData = UserData(
    phoneNumber: string,
    firstName: string,
    lastName: string,
    email: Option<string>)

  /** The record the app starts from when nothing is stored and resets to
      on delete. */
  const EmptyUser := UserData("", "", "", None)

  /** The display name: first name, one space, last name. */
  function FullName(u: UserData): (r: string)
    ensures |r| == |u.firstName| + |u.lastName| + 1
    ensures r[..|u.firstName|] == u.firstName
    ensures r[|u.firstName|] == ' '
    ensures r[|u.firstName| + 1..] == u.lastName
  {
    u.firstName + " " + u.lastName
  }

  /** The display name is never empty, whatever the fields hold. */
  lemma FullNameNeverEmpty(u: UserData)
    ensures FullName(u) != []
    ensures ' ' in FullName(u)
  {
    assert FullName(u)[|u.firstName|] == ' ';
  }

  /** The reset record displays as a single space. */
  lemma EmptyUserFullName()
    ensures FullName(EmptyUser) == " "
  {
    var r := FullName(EmptyUser);
    assert |r| == 1 && r[0] == ' ';
  }

  /** The full name determines the name pair when the first name has no
      space: the first space sits right after the first name. */
  lemma FullNameSplit(u: UserData)
    requires ' ' !in u.firstName
    ensures IndexOf(FullName(u), ' ') == Some(|u.firstName|)
  {
    var r := FullName(u);
    assert r[|u.firstName|] == ' ';
  }
}

=== FILE: user_data_view_model.dfy ===
/** `UserDataViewModel`: the form's sanitising and validation rules and the
    save/delete transitions over the view model's state. */
module ViewModel {
  import opened Optional
  import opened Text
  import opened UserModel
  import Storage
  import Email

  const NameMax: nat := 100
  const PhoneMax: nat := 20
  const EmailMax: nat := 254

  const EmptyNameMessage := "El nombre no puede estar vacío."
  const InvalidPhoneMessage := "El número de teléfono contiene caracteres inválidos."
  const InvalidEmailMessage := "El formato del email no es válido."

  /** The view model's observable state and the store behind it. */
  datatype State = State(
    userData: UserData,
    validationError: Option<string>,
    isDataSaved: bool,
    store: Storage.Store)

  /** `sanitize`: trim whitespace and newlines from both ends, then keep at
      most `maxLength` characters. */
  function Sanitize(value: string, maxLength: nat): (r: string)
    ensures |r| <= maxLength
    ensures |r| <= |Trim(value, IsWs)| && r == Trim(value, IsWs)[..|r|]
    ensures |Trim(value, IsWs)| <= maxLength ==> r == Trim(value, IsWs)
    ensures maxLength < |Trim(value, IsWs)| ==> |r| == maxLength
    ensures r != [] ==> !IsWs(r[0])
  {
    Prefix(Trim(value, IsWs), maxLength)
  }

  /** Sanitizing is not idempotent: a cut can leave trailing whitespace,
      which a second pass removes. */
  lemma SanitizeNotIdempotent()
    ensures Sanitize("ab cd", 3) == "ab "
    ensures Sanitize("ab ", 3) == "ab"
  {
    CutLeavesSpace();
    SecondPassTrims();
  }

  /** The first pass over "ab cd" trims nothing and cuts after the space. */
  lemma CutLeavesSpace()
    ensures Sanitize("ab cd", 3) == "ab "
  {
    var v := "ab cd";
    assert v[0] == 'a' && v[|v| - 1] == 'd';
    SanitizeTrimOnly(v, 3);
    assert v[..3] == "ab ";
  }

  /** The second pass drops the trailing space of "ab ". */
  lemma SecondPassTrims()
    ensures Sanitize("ab ", 3) == "ab"
  {
    var w := "ab ";
    var t := "ab";
    assert w[0] == 'a' && w[2] == ' ';
    assert t == w[0..2];
    assert t[0] == 'a' && t[1] == 'b';
    assert TrimmedAt(w, IsWs, 0, t);
    TrimUnique(w, IsWs, 0, t);
  }

  /** When no cut happens, a second pass changes nothing. */
  lemma SanitizeIdempotentWhenShort(value: string, maxLength: nat)
    requires |Trim(value, IsWs)| <= maxLength
    ensures Sanitize(Sanitize(value, maxLength), maxLength) == Sanitize(value, maxLength)
  {
    var t := Trim(value, IsWs);
    assert TrimmedAt(t, IsWs, 0, t);
    TrimUnique(t, IsWs, 0, t);
  }

  /** A sanitized value that was not cut has no whitespace at either end. */
  lemma SanitizeNoTrailingWs(value: string, maxLength: nat)
    requires |Trim(value, IsWs)| <= maxLength
    ensures var r := Sanitize(value, maxLength); r != [] ==> !IsWs(r[|r| - 1])
  {
    var t := Trim(value, IsWs);
    var k :| TrimmedAt(value, IsWs, k, t);
    assert Sanitize(value, maxLength) == t;
  }

  /** The characters a phone number may hold: `+`, the ASCII digits,
      space, parentheses and `-`. */
  predicate IsPhoneChar(c: char) {
    c == '+' || IsAsciiDigit(c) || c == ' ' || c == '(' || c == ')' || c == '-'
  }

  /** `isValidPhone`: non-empty, and every character whitelisted. */
  predicate IsValidPhone(phone: string) {
    phone != [] && All(phone, IsPhoneChar)
  }

  /** The empty string is no phone number. */
  lemma EmptyPhoneRejected()
    ensures !IsValidPhone("")
  {
  }

  /** A string holding a character outside the whitelist is no phone
      number. */
  lemma PhoneRejections(phone: string, i: nat)
    requires i < |phone| && !IsPhoneChar(phone[i])
    ensures !IsValidPhone(phone)
  {
  }

  /** A valid number holds no line break and no letter. */
  lemma ValidPhoneHasNoNewline(phone: string)
    requires IsValidPhone(phone)
    ensures '\n' !in phone
    ensures forall i :: 0 <= i < |phone| ==> !IsAsciiLetter(phone[i])
  {
    AllExcludes(phone, IsPhoneChar, '\n');
    forall i | 0 <= i < |phone| ensures !IsAsciiLetter(phone[i]) {
      assert IsPhoneChar(phone[i]);
    }
  }

  /** A phone whose trimmed form is valid stays valid after the 20-character
      cut: an overlong number is truncated, never rejected. */
  lemma OverlongPhoneTruncated(phone: string)
    requires IsValidPhone(Trim(phone, IsWs))
    ensures IsValidPhone(Sanitize(phone, PhoneMax))
  {
    var t := Trim(phone, IsWs);
    var r := Sanitize(phone, PhoneMax);
    assert r != [];
    forall i | 0 <= i < |r| ensures IsPhoneChar(r[i]) {
      assert r[i] == t[i];
    }
  }

  /** `isValidEmail`. */
  predicate IsValidEmail(email: string) {
    Email.IsValidEmail(email)
  }

  /** `hasData`: phone and both names non-empty. */
  predicate HasData(u: UserData) {
    u.phoneNumber != [] && u.firstName != [] && u.lastName != []
  }

  /** `init`: load the stored record and derive the saved flag from it. */
  function Init(store: Storage.Store): (s: State)
    ensures s.userData == Storage.LoadData(store) && s.store == store
    ensures s.validationError == None
    ensures s.isDataSaved <==> HasData(s.userData)
  {
    var u := Storage.LoadData(store);
    State(u, None, HasData(u), store)
  }

  /** The sanitized email, or nil when sanitizing leaves nothing. */
  function SanitizedEmail(email: Option<string>): (r: Option<string>)
    ensures r.Some? ==> r.value != [] && r.value == Sanitize(email.GetOr(""), EmailMax)
    ensures r.None? ==> Sanitize(email.GetOr(""), EmailMax) == []
  {
    var e := Sanitize(email.GetOr(""), EmailMax);
    if e == [] then None else Some(e)
  }

  /** The record `saveData` commits when every check passes. */
  function SanitizedProfile(u: UserData): (r: UserData)
    ensures |r.firstName| <= NameMax && |r.lastName| <= NameMax
    ensures |r.phoneNumber| <= PhoneMax
    ensures r.email.Some? ==> |r.email.value| <= EmailMax
  {
    UserData(
      Sanitize(u.phoneNumber, PhoneMax),
      Sanitize(u.firstName, NameMax),
      Sanitize(u.lastName, NameMax),
      SanitizedEmail(u.email))
  }

  /** A record `saveData` would accept, stated field by field: both names
      non-empty, at most 100 characters and not starting with whitespace;
      a whitelisted phone of at most 20; no email or a non-empty one of at
      most 254 that passes the email check. */
  ghost predicate ValidProfile(u: UserData) {
    && 1 <= |u.firstName| <= NameMax && !IsWs(u.firstName[0])
    && 1 <= |u.lastName| <= NameMax && !IsWs(u.lastName[0])
    && IsValidPhone(u.phoneNumber) && |u.phoneNumber| <= PhoneMax
    && (u.email.Some? ==> 1 <= |u.email.value| <= EmailMax && IsValidEmail(u.email.value))
  }

  /** `saveData`: names, then phone, then a non-empty email are checked in
      that order; the first failure only sets its message, and success
      clears the message, commits the sanitized record, saves it and sets
      the saved flag. */
  function SaveData(s: State): (r: State)
    ensures var p := SanitizedProfile(s.userData);
      var e := Sanitize(s.userData.email.GetOr(""), EmailMax);
      && (p.firstName == [] || p.lastName == [] ==>
            r == s.(validationError := Some(EmptyNameMessage)))
      && (p.firstName != [] && p.lastName != [] && !IsValidPhone(p.phoneNumber) ==>
            r == s.(validationError := Some(InvalidPhoneMessage)))
      && (p.firstName != [] && p.lastName != [] && IsValidPhone(p.phoneNumber)
          && e != [] && !IsValidEmail(e) ==>
            r == s.(validationError := Some(InvalidEmailMessage)))
      && (p.firstName != [] && p.lastName != [] && IsValidPhone(p.phoneNumber)
          && (e == [] || IsValidEmail(e)) ==>
            r.validationError.None?)
    ensures r.validationError.Some? ==>
      r.userData == s.userData && r.store == s.store && r.isDataSaved == s.isDataSaved
    ensures r.validationError.None? ==>
      && r.userData == SanitizedProfile(s.userData)
      && r.store == Storage.SaveData(s.store, r.userData)
      && r.isDataSaved
  {
    var firstName := Sanitize(s.userData.firstName, NameMax);
    var lastName := Sanitize(s.userData.lastName, NameMax);
    var phoneNumber := Sanitize(s.userData.phoneNumber, PhoneMax);
    var rawEmail := Sanitize(s.userData.email.GetOr(""), EmailMax);
    if firstName == [] || lastName == [] then
      s.(validationError := Some(EmptyNameMessage))
    else if !IsValidPhone(phoneNumber) then
      s.(validationError := Some(InvalidPhoneMessage))
    else if rawEmail != [] && !IsValidEmail(rawEmail) then
      s.(validationError := Some(InvalidEmailMessage))
    else
      var u := UserData(phoneNumber, firstName, lastName, if rawEmail == [] then None else Some(rawEmail));
      State(u, None, true, Storage.SaveData(s.store, u))
  }

  /** `saveData` succeeds exactly when the sanitized record is valid, and
      what it commits and stores is that record. */
  lemma SaveSucceedsIffValid(s: State)
    ensures SaveData(s).validationError.None? <==> ValidProfile(SanitizedProfile(s.userData))
    ensures SaveData(s).validationError.None? ==>
      && ValidProfile(SaveData(s).userData)
      && Storage.LoadData(SaveData(s).store) == SaveData(s).userData
  {
    var r := SaveData(s);
    if r.validationError.None? {
      SavedIsValid(s);
      Storage.LoadAfterSave(s.store, r.userData);
    } else if ValidProfile(SanitizedProfile(s.userData)) {
      ValidIsSaved(s);
    }
  }

  /** What a successful save commits passes every check. */
  lemma SavedIsValid(s: State)
    requires SaveData(s).validationError.None?
    ensures SaveData(s).userData == SanitizedProfile(s.userData)
    ensures ValidProfile(SaveData(s).userData)
  {
    var p := SanitizedProfile(s.userData);
    var e := Sanitize(s.userData.email.GetOr(""), EmailMax);
    assert p.firstName != [] && p.lastName != [];
    assert IsValidPhone(p.phoneNumber);
    assert e != [] ==> IsValidEmail(e);
  }

  /** A sanitized record that passes every check is saved. */
  lemma ValidIsSaved(s: State)
    requires ValidProfile(SanitizedProfile(s.userData))
    ensures SaveData(s).validationError.None?
  {
    var p := SanitizedProfile(s.userData);
    var e := Sanitize(s.userData.email.GetOr(""), EmailMax);
    assert p.firstName == Sanitize(s.userData.firstName, NameMax) != [];
    assert p.lastName == Sanitize(s.userData.lastName, NameMax) != [];
    assert IsValidPhone(Sanitize(s.userData.phoneNumber, PhoneMax));
    assert e != [] ==> p.email == Some(e) && IsValidEmail(e);
  }

  /** A refused save writes nothing: the record, the store and the saved
      flag are those from before. */
  lemma SaveRefusedWritesNothing(s: State)
    requires SaveData(s).validationError.Some?
    ensures SaveData(s) == s.(validationError := SaveData(s).validationError)
  {
  }

  /** Whitespace-only names are refused with the name message whatever the
      other fields hold. */
  lemma BlankNameRefused(s: State)
    requires All(s.userData.firstName, IsWs)
    ensures SaveData(s).validationError == Some(EmptyNameMessage)
  {
    var t := Trim(s.userData.firstName, IsWs);
    var k :| TrimmedAt(s.userData.firstName, IsWs, k, t);
  }

  /** When the trimmed email fits the 254 limit, a stored email matches the
      email grammar exactly. */
  lemma StoredEmailInGrammar(s: State)
    requires |Trim(s.userData.email.GetOr(""), IsWs)| <= EmailMax
    requires SaveData(s).validationError.None? && SaveData(s).userData.email.Some?
    ensures Email.InGrammar(SaveData(s).userData.email.value)
  {
    SavedIsValid(s);
    SanitizedEmailInGrammar(s.userData.email);
  }

  /** A sanitized email that fits uncut and passes the check is in the
      email grammar. */
  lemma SanitizedEmailInGrammar(email: Option<string>)
    requires |Trim(email.GetOr(""), IsWs)| <= EmailMax
    requires SanitizedEmail(email).Some? && IsValidEmail(SanitizedEmail(email).value)
    ensures Email.InGrammar(SanitizedEmail(email).value)
  {
    var e := SanitizedEmail(email).value;
    assert e != [] && !IsWs(e[|e| - 1]) by {
      UncutEmailClean(email);
    }
    assert Email.IsValidEmail(e);
    Email.TrimmedValidEmailInGrammar(e);
  }

  /** An email whose trimmed text fits 254 characters is committed
      without trailing whitespace. */
  lemma UncutEmailClean(email: Option<string>)
    requires |Trim(email.GetOr(""), IsWs)| <= EmailMax
    requires SanitizedEmail(email).Some?
    ensures var e := SanitizedEmail(email).value; !IsWs(e[|e| - 1])
  {
    var raw := email.GetOr("");
    var t := Trim(raw, IsWs);
    var k :| TrimmedAt(raw, IsWs, k, t);
    assert SanitizedEmail(email).value == t;
  }

  /** An email of at most 254 characters, as the form's clamp leaves it,
      is committed without trailing whitespace, a line break included. */
  lemma ClampedEmailSavedClean(s: State)
    requires |s.userData.email.GetOr("")| <= EmailMax
    requires SaveData(s).validationError.None? && SaveData(s).userData.email.Some?
    ensures var e := SaveData(s).userData.email.value; !IsWs(e[|e| - 1])
  {
    SavedIsValid(s);
    ShortEmailSanitizedClean(s.userData.email);
  }

  /** Sanitizing an email of at most 254 characters leaves no trailing
      whitespace. */
  lemma ShortEmailSanitizedClean(email: Option<string>)
    requires |email.GetOr("")| <= EmailMax
    requires SanitizedEmail(email).Some?
    ensures var e := SanitizedEmail(email).value; !IsWs(e[|e| - 1])
  {
    var raw := email.GetOr("");
    var t := Trim(raw, IsWs);
    var k :| TrimmedAt(raw, IsWs, k, t);
    SanitizeNoTrailingWs(raw, EmailMax);
  }

  /** `n` copies of `c`. */
  function Repeat(c: char, n: nat): (r: string)
    ensures |r| == n && forall i :: 0 <= i < n ==> r[i] == c
  {
    if n == 0 then [] else [c] + Repeat(c, n - 1)
  }

  /** Emails of every length from 6 up are in the grammar, 253 included. */
  lemma LongEmailsExist(n: nat)
    ensures Email.InGrammar(Repeat('a', n + 1) + "@b.cc")
    ensures |Repeat('a', n + 1) + "@b.cc"| == n + 6
  {
    var l := Repeat('a', n + 1);
    assert Email.Shape(l + "@b.cc", l, "b", "cc");
  }

  /** A 253-character email followed by a line break and one more
      character: the 254 cut ends on the line break, which the email check
      tolerates before the end of input, so the email committed and stored
      ends in a line break. This needs `saveData` on a record the form has
      not clamped; see `ClampedEmailSavedClean` for the clamped case. */
  lemma CutEmailEndingInLineBreakSaved(s: State, e: string, c: char)
    requires Email.InGrammar(e) && |e| == EmailMax - 1 && !IsWs(c)
    requires s.userData.email == Some(e + "\n" + [c])
    requires Sanitize(s.userData.firstName, NameMax) != []
    requires Sanitize(s.userData.lastName, NameMax) != []
    requires IsValidPhone(Sanitize(s.userData.phoneNumber, PhoneMax))
    ensures SaveData(s).validationError.None?
    ensures SaveData(s).userData.email == Some(e + "\n")
  {
    CutEmail(e, c);
    Email.TrailingNewlineAccepted(e);
    SavedWithEmail(s, e + "\n");
  }

  /** With both names and the phone passing, an email that sanitizes to a
      non-empty valid `em` is committed as `em`. */
  lemma SavedWithEmail(s: State, em: string)
    requires Sanitize(s.userData.firstName, NameMax) != []
    requires Sanitize(s.userData.lastName, NameMax) != []
    requires IsValidPhone(Sanitize(s.userData.phoneNumber, PhoneMax))
    requires Sanitize(s.userData.email.GetOr(""), EmailMax) == em
    requires em != [] && IsValidEmail(em)
    ensures SaveData(s).validationError.None?
    ensures SaveData(s).userData.email == Some(em)
  {
    assert SanitizedEmail(s.userData.email) == Some(em);
  }

  /** The 254 cut of such an email drops only the final character. */
  lemma CutEmail(e: string, c: char)
    requires Email.InGrammar(e) && |e| == EmailMax - 1 && !IsWs(c)
    ensures Sanitize(e + "\n" + [c], EmailMax) == e + "\n"
  {
    Email.GrammarStartsClean(e);
    var v := e + "\n";
    assert v[0] == e[0];
    CutLastChar(v, c, EmailMax);
  }

  /** A value of exactly the limit with one more character appended is cut
      back to itself. */
  lemma CutLastChar(v: string, c: char, n: nat)
    requires |v| == n && v != [] && !IsWs(v[0]) && !IsWs(c)
    ensures Sanitize(v + [c], n) == v
  {
    var raw := v + [c];
    assert raw[0] == v[0] && raw[|raw| - 1] == c;
    SanitizeTrimOnly(raw, n);
    assert raw[..n] == v;
  }

  /** A value with no whitespace at either end is only cut, never trimmed. */
  lemma SanitizeTrimOnly(v: string, n: nat)
    requires v != [] ==> !IsWs(v[0]) && !IsWs(v[|v| - 1])
    ensures Sanitize(v, n) == Prefix(v, n)
  {
    assert TrimmedAt(v, IsWs, 0, v);
    TrimUnique(v, IsWs, 0, v);
  }

  /** A value that fits and has no whitespace at either end is kept as is. */
  lemma SanitizeKeeps(v: string, n: nat)
    requires |v| <= n
    requires v != [] ==> !IsWs(v[0]) && !IsWs(v[|v| - 1])
    ensures Sanitize(v, n) == v
  {
    assert TrimmedAt(v, IsWs, 0, v);
    TrimUnique(v, IsWs, 0, v);
  }

  /** `deleteData`: reset the record, clear the store's profile keys and the
      saved flag; the validation message is left as it was. */
  function DeleteData(s: State): (r: State)
    ensures r.userData == EmptyUser && !HasData(r.userData)
    ensures r.store == Storage.DeleteData(s.store)
    ensures Storage.LoadData(r.store) == r.userData
    ensures r.validationError == s.validationError
    ensures !r.isDataSaved
  {
    Storage.LoadAfterDelete(s.store);
    State(EmptyUser, s.validationError, false, Storage.DeleteData(s.store))
  }

  /** The saved flag agrees with `hasData`, and the store loads back the
      record on screen. This holds across `init`, `saveData` and
      `deleteData` only: the edit button of the display screen clears the
      saved flag, and typing in the form changes the record without
      writing the store. */
  ghost predicate Consistent(s: State) {
    && s.isDataSaved == HasData(s.userData)
    && Storage.LoadData(s.store) == s.userData
  }

  /** `init` establishes consistency; `saveData` and `deleteData` keep it. */
  lemma ConsistencyPreserved(store: Storage.Store, s: State)
    ensures Consistent(Init(store))
    ensures Consistent(s) ==> Consistent(SaveData(s))
    ensures Consistent(s) ==> Consistent(DeleteData(s))
  {
    SaveSucceedsIffValid(s);
  }

  /** Reopening the app after a successful save shows the saved record with
      the saved flag set. */
  lemma ReopenAfterSave(s: State)
    requires SaveData(s).validationError.None?
    ensures Init(SaveData(s).store).userData == SaveData(s).userData
    ensures Init(SaveData(s).store).isDataSaved
  {
    SaveSucceedsIffValid(s);
  }

  /** Reopening the app after a delete shows the empty record, not saved. */
  lemma ReopenAfterDelete(s: State)
    ensures Init(DeleteData(s).store).userData == EmptyUser
    ensures !Init(DeleteData(s).store).isDataSaved
  {
  }
}

=== FILE: user_form_view.dfy ===
/** `UserFormView`: the per-field length clamps run on every edit, the
    binding that shows an absent email as empty text, and the rule that
    enables the save button. */
module Form {
  import opened Optional
  import opened Text
  import opened UserModel
  import ViewModel

  /** `if v.count > limit { v = String(v.prefix(limit)) }`. */
  function Clamp(v: string, limit: nat): (r: string)
    ensures |r| <= limit && |r| <= |v| && r == v[..|r|]
    ensures |v| <= limit ==> r == v
    ensures limit < |v| ==> |r| == limit
  {
    if |v| > limit then v[..limit] else v
  }

  /** The clamp is the prefix operation, and applying it twice is the same
      as once. */
  lemma ClampIsPrefix(v: string, limit: nat)
    ensures Clamp(v, limit) == Prefix(v, limit)
    ensures Clamp(Clamp(v, limit), limit) == Clamp(v, limit)
  {
  }

  /** Edits to the first name, last name and phone. */
  function OnFirstNameChange(u: UserData): (r: UserData)
    ensures |r.firstName| <= ViewModel.NameMax && |r.firstName| <= |u.firstName|
    ensures r.firstName == u.firstName[..|r.firstName|]
    ensures |u.firstName| <= ViewModel.NameMax ==> r == u
    ensures ViewModel.NameMax < |u.firstName| ==> |r.firstName| == ViewModel.NameMax
    ensures r.(firstName := u.firstName) == u
  {
    u.(firstName := Clamp(u.firstName, ViewModel.NameMax))
  }

  function OnLastNameChange(u: UserData): (r: UserData)
    ensures |r.lastName| <= ViewModel.NameMax && |r.lastName| <= |u.lastName|
    ensures r.lastName == u.lastName[..|r.lastName|]
    ensures |u.lastName| <= ViewModel.NameMax ==> r == u
    ensures ViewModel.NameMax < |u.lastName| ==> |r.lastName| == ViewModel.NameMax
    ensures r.(lastName := u.lastName) == u
  {
    u.(lastName := Clamp(u.lastName, ViewModel.NameMax))
  }

  function OnPhoneChange(u: UserData): (r: UserData)
    ensures |r.phoneNumber| <= ViewModel.PhoneMax && |r.phoneNumber| <= |u.phoneNumber|
    ensures r.phoneNumber == u.phoneNumber[..|r.phoneNumber|]
    ensures |u.phoneNumber| <= ViewModel.PhoneMax ==> r == u
    ensures ViewModel.PhoneMax < |u.phoneNumber| ==> |r.phoneNumber| == ViewModel.PhoneMax
    ensures r.(phoneNumber := u.phoneNumber) == u
  {
    u.(phoneNumber := Clamp(u.phoneNumber, ViewModel.PhoneMax))
  }

  /** The email clamp looks at the shown text; an absent email shows as
      empty text and is never touched. */
  function OnEmailChange(u: UserData): (r: UserData)
    ensures u.email.None? ==> r == u
    ensures r.email.Some? <==> u.email.Some?
    ensures u.email.Some? ==>
      |r.email.value| <= ViewModel.EmailMax && |r.email.value| <= |u.email.value|
      && r.email.value == u.email.value[..|r.email.value|]
    ensures u.email.Some? && |u.email.value| <= ViewModel.EmailMax ==> r == u
    ensures u.email.Some? && ViewModel.EmailMax < |u.email.value| ==>
      |r.email.value| == ViewModel.EmailMax
    ensures r.(email := u.email) == u
  {
    var v := u.email.GetOr("");
    if |v| > ViewModel.EmailMax then u.(email := Some(v[..ViewModel.EmailMax])) else u
  }

  /** All four clamps together, as after any sequence of edits. */
  function Clamped(u: UserData): UserData {
    OnEmailChange(OnPhoneChange(OnLastNameChange(OnFirstNameChange(u))))
  }

  /** Each clamp is idempotent, so the clamped record is a fixed point. */
  lemma ClampsIdempotent(u: UserData)
    ensures Clamped(Clamped(u)) == Clamped(u)
    ensures OnFirstNameChange(OnFirstNameChange(u)) == OnFirstNameChange(u)
    ensures OnEmailChange(OnEmailChange(u)) == OnEmailChange(u)
  {
  }

  /** After the form's clamp the save-time cut never removes anything: the
      sanitized value is just the trimmed one. */
  lemma ClampMakesCutRedundant(v: string, limit: nat)
    ensures ViewModel.Sanitize(Clamp(v, limit), limit) == Trim(Clamp(v, limit), IsWs)
  {
    var c := Clamp(v, limit);
    var t := Trim(c, IsWs);
    var k :| TrimmedAt(c, IsWs, k, t);
  }

  /** The email field's getter: absent shows as empty text. */
  function EmailText(u: UserData): (t: string)
    ensures u.email.None? ==> t == ""
    ensures u.email.Some? ==> t == u.email.value
  {
    u.email.GetOr("")
  }

  /** The email field's setter: empty text stores nil, anything else
      stores the text. */
  function SetEmailText(u: UserData, t: string): (r: UserData)
    ensures t == "" ==> r.email == None
    ensures t != "" ==> r.email == Some(t)
    ensures r.(email := u.email) == u
  {
    u.(email := if t == "" then None else Some(t))
  }

  /** Reading back what was typed gives the typed text; writing back what
      is shown changes nothing unless an empty email was stored, which
      becomes nil. */
  lemma EmailBindingRoundTrip(u: UserData, t: string)
    ensures EmailText(SetEmailText(u, t)) == t
    ensures SetEmailText(u, EmailText(u)) == u <==> u.email != Some("")
  {
  }

  /** The button's `disabled` rule: phone, first or last name empty, as
      typed and untrimmed. */
  predicate SaveDisabled(u: UserData) {
    u.phoneNumber == [] || u.firstName == [] || u.lastName == []
  }

  /** The button is enabled exactly when the view model reports data. */
  lemma SaveEnabledIffHasData(u: UserData)
    ensures !SaveDisabled(u) <==> ViewModel.HasData(u)
  {
  }

  /** A disabled button guards nothing that could succeed: saving such a
      record is always refused. */
  lemma DisabledSaveRefused(s: ViewModel.State)
    requires SaveDisabled(s.userData)
    ensures ViewModel.SaveData(s).validationError.Some?
  {
    if ViewModel.SaveData(s).validationError.None? {
      ViewModel.SavedIsValid(s);
      DisabledInvalid(s.userData);
      assert false;
    }
  }

  /** A record the disabled button blocks never sanitizes to a valid one. */
  lemma DisabledInvalid(u: UserData)
    requires SaveDisabled(u)
    ensures !ViewModel.ValidProfile(ViewModel.SanitizedProfile(u))
  {
    var p := ViewModel.SanitizedProfile(u);
    ViewModel.SanitizeKeeps("", ViewModel.NameMax);
    ViewModel.SanitizeKeeps("", ViewModel.PhoneMax);
    if u.firstName == [] {
      assert p.firstName == [];
    } else if u.lastName == [] {
      assert p.lastName == [];
    } else {
      assert p.phoneNumber == [];
      ViewModel.EmptyPhoneRejected();
    }
  }

  /** Whitespace-only names enable the button, yet saving is refused with
      the name message. */
  lemma BlankNameEnabledButRefused(s: ViewModel.State)
    requires s.userData.firstName != [] && All(s.userData.firstName, IsWs)
    requires s.userData.lastName != [] && s.userData.phoneNumber != []
    ensures !SaveDisabled(s.userData)
    ensures ViewModel.SaveData(s).validationError == Some(ViewModel.EmptyNameMessage)
  {
    ViewModel.BlankNameRefused(s);
  }
}
